=== FILE: README.md ===
# Medication dose status and missed-dose sweep, modelled in Dafny

This project models the core of a medication-reminder app: how it decides a
scheduled dose's status, and how it keeps its dose history.

- **Status engine** (`getDoseStatus`). It classifies one scheduled
  occurrence as `taken`, `pending`, `missed` or `upcoming`. The inputs are
  that medication's dose records, a grace period and the current time.
- **Missed-dose sweep** (`checkMissedDoses`). It walks today's occurrences
  of every schedule. For each occurrence past its ten-minute grace window
  with no record yet, it appends one synthetic record with `taken` false.
- **Event store** (`addMedication`, `updateMedication`, `deleteMedication`,
  `recordDose`, `getTodaysDoses`). Each operation is a pure function from
  the old medication list and dose history to the new ones.
- **Pure helpers.** The 12-hour time formatter `convertToAmPm`, and the
  logic inside the home screen:
  - which schedules are listed today;
  - what "take dose" records;
  - one dose row per time, with its status;
  - the (hour, minute) sort;
  - the completed count and progress.

Modules, leaves first: `Wrappers` (Option), `Seqs` (filter), `Text`
(JavaScript `Number`, `parseInt`, `toString`, `padStart`, `split`), `Time`
(instants, days, clock times), `Storage`, `Status`, `Sweep`, `SweepExamples`,
`AmPm`, `Home`.

## Abstractions

- **Instants.** Instants are integer milliseconds. The calendar day of an
  instant is its floor division by 86 400 000, which puts local time at
  offset zero. `isSameDay` and `toDateString()` equality become equality of
  `DayOf`. An ISO string stands for the instant it denotes, so equal
  `scheduledTime` strings are equal integers.
- **Dose times.** Dose times stay the strings the schedule stores. They are
  read as `time.split(':').map(Number)` reads them:
  - the empty string is 0;
  - a run of digits is its value;
  - anything else is NaN.

  A NaN field makes `setHours` produce an invalid date. `Time.At` is
  `setHours(h, m, 0, 0)` on the day of a given instant. Out-of-range hours
  or minutes roll into the next day, as they do in `setHours`.
- **Durations.** A duration reads as ongoing if it is `"Ongoing"` or its
  leading number is -1. Otherwise it is `parseInt` of its first word in
  days, or unparsed (NaN).
- **Ids.** The random id `recordDose` draws becomes a parameter. The sweep
  takes `newId: nat -> string`, applied to the history length at each
  append.

## Behaviour stated as the code has it

- **Swept misses read as taken.** The sweep writes its record with `taken`
  false, so one would expect a schedule with 08:00, loaded after 08:10, to
  show the 08:00 dose as `missed`. The status engine instead classifies
  `taken` whenever any record's timestamp is at or after the scheduled
  instant, and never reads the `taken` flag. The sweep's record is
  stamped at scheduled + 10 min, so that occurrence then reads as `taken`.
  The model follows the code. `Status.StatusIgnoresTakenFlag`,
  `Home.SweptOccurrenceShowsTaken` and `Home.MorningScenarioShowsTaken`
  state this.
- **Fixed durations reach into an (N + 1)-th day.** The home screen's
  filter lists a schedule from its start up to start + N days, end
  included: a window N days long. It touches N + 1 calendar days, but on
  the last one only up to the start's time of day; a schedule starting at
  midnight is listed on that day for one instant. The model follows the
  code (`Home.FixedDurationDays`, `Home.FixedLastDay`).
- **Taking a dose early does not answer it.** "Take" on a dose whose time
  has not come stamps the record with the present instant. That is earlier
  than the occurrence, so the occurrence does not become `taken`
  (`Home.EarlyTakeLeavesOccurrenceOpen`).
- **A repeated time is marked missed twice.** The sweep's history snapshot
  is read once and not refreshed. A schedule that lists one time twice gets
  two missed records for the same occurrence
  (`Sweep.StaleSnapshotMarksTwice`, `SweepExamples.RepeatedTimeMarkedTwice`).
- **A bad time can end the sweep early.** An unreadable dose time makes
  `toISOString()` throw. That happens only when the snapshot holds some
  record of the same medication, because `&&` short-circuits first. The
  exception is caught and ends the sweep, and the records already appended
  stay (`Sweep.Aborts`, `Sweep.Reach`). Sweep idempotence holds
  nonetheless.

## Model

| member | source | states |
|---|---|---|
| Status.AnyStampedFrom | utils/storage.ts:194-197 | `doses.some(...)` is true exactly when some record's timestamp is at or after the scheduled instant |
| Status.GetDoseStatus | utils/storage.ts:184-215 | taken iff some record is stamped at or after the scheduled instant; otherwise pending iff 0 <= now - scheduled <= grace·60000 (both bounds inclusive); otherwise missed iff past the grace window on the same calendar day |
| Status.UpcomingMeansFutureOrStale | utils/storage.ts:208-214 | with a non-negative grace, upcoming is exactly: not taken, and either in the future or past the grace window on an earlier day |
| Status.StatusIgnoresTakenFlag | utils/storage.ts:194-199 | clearing every record's `taken` flag changes no status |
| Status.MissedRecordReadsAsTaken | utils/storage.ts:194-199 | a `taken=false` record stamped at or after the scheduled instant makes the occurrence taken at every current time |
| Status.LaterAnswerCoversEarlier | utils/storage.ts:194-197 | a record that answers an occurrence answers every earlier occurrence too |
| Status.AnsweredAppend | utils/storage.ts:194-197 | one more record answers an occurrence exactly when it is stamped at or after it, or the earlier records already did |
| Status.MoreRecordsOnlyAnswer | utils/storage.ts:194-199 | adding records can only turn a status into taken; any other status is unchanged |
| Status.StatusAdvancesWithClock | utils/storage.ts:201-214 | on the occurrence's own day, with a non-negative grace, the status only moves forward: upcoming, then pending, then missed |
| Status.TenMinuteGraceExamples | utils/storage.ts:201-214 | with a 10-minute grace and no records: +5 min and +10 min are pending, +15 min on the same day is missed, -1 min is upcoming |
| Sweep.AnyRecordFor | utils/storage.ts:151-154 | the existence test is true exactly when a record has the same medication id and an equal `scheduledTime` |
| Sweep.AnyRecordOf | utils/storage.ts:151-153 | true exactly when some record belongs to the medication, which is when the `&&` reaches `toISOString()` |
| Sweep.Reach | utils/storage.ts:143-172 | the sweep visits slots up to the first one whose unreadable time throws; no visited slot aborts |
| Sweep.SweepSlot | utils/storage.ts:145-165 | medications unchanged; when the slot is overdue (not in the future, no record for it in the snapshot, strictly past the grace window) exactly one record is appended, `taken=false`, stamped scheduled + 10 min, answering the scheduled instant, with the id drawn at the old history length; otherwise the history is unchanged |
| Sweep.SweepSlots | utils/storage.ts:143-169 | medications unchanged; old history is a prefix; the new records are exactly one per marked slot (visited before the stopping point and overdue), in loop order: the k-th is that slot's missed record (`taken=false`, timestamp scheduled + 10 min, `scheduledTime` = scheduled) with the id drawn at history length old + k |
| Sweep.CheckMissedDoses | utils/storage.ts:133-173 | the same guarantees over every (schedule, time) of the medication list, against the history read once at the start: one missed record per marked slot, in loop order, and nothing else |
| Sweep.MarkedSlotsCover | utils/storage.ts:149-166 | every slot the sweep visits whose occurrence is overdue is among the marked slots |
| Sweep.SweepSlotsComplete | utils/storage.ts:149-166 | every overdue slot visited before the sweep stops gets its missed record |
| Sweep.CheckMissedDosesComplete | utils/storage.ts:143-169 | every overdue occurrence the sweep reaches has its record in the resulting history |
| Sweep.SweepSlotsQuiet | utils/storage.ts:149-166 | when no visited slot is overdue, the sweep leaves the store unchanged |
| Sweep.ReachShrinks | utils/storage.ts:151-154 | a longer history can only make the sweep stop earlier |
| Sweep.SweepIdempotent | utils/storage.ts:151-164 | a second sweep at the same clock over the first sweep's result appends nothing, whatever ids it draws |
| Sweep.SweepOneOverdue | utils/storage.ts:143-166 | a store whose only slot is overdue gains exactly one record: the id drawn at the old history length, `taken=false`, stamped scheduled + 10 min, answering the scheduled instant |
| Sweep.StaleSnapshotMarksTwice | utils/storage.ts:135-165 | the unrefreshed snapshot lets a time listed twice, overdue against it, get two missed records for one occurrence |
| SweepExamples.MorningScenario | utils/storage.ts:143-166 | any schedule whose one time is "08:00", with no records, swept on the first day after 08:10: exactly one record, `taken=false`, stamped 08:10, answering 08:00 |
| SweepExamples.RepeatedTimeMarkedTwice | utils/storage.ts:135-165 | any schedule listing "08:00" twice, with no records, swept on the first day after 08:10: two records for the one 08:00 occurrence |
| Storage.FindIndex | utils/storage.ts:54 | the index of the first medication with the id, or none when no medication has it |
| Storage.AddMedication | utils/storage.ts:40-49 | the medication is appended at the end; earlier entries unchanged |
| Storage.UpdateMedication | utils/storage.ts:51-63 | replaces only the first entry with the id and keeps the length; leaves the list untouched when the id is absent |
| Storage.DeleteMedication | utils/storage.ts:65-74 | keeps exactly the entries with another id; afterwards no entry has the id |
| Storage.AddThenFind | utils/storage.ts:40-56 | after adding, the id finds the new entry, unless an older entry with that id shadows it |
| Storage.UpdateThenFind | utils/storage.ts:51-58 | after updating a known id, the id leads to the new entry at the same index |
| Storage.UpdateIdempotent | utils/storage.ts:51-58 | updating twice with the same medication is updating once |
| Storage.DeleteKeepsOrder | utils/storage.ts:65-69 | deletion distributes over concatenation, so survivors keep their order |
| Storage.DeleteAbsent | utils/storage.ts:65-69 | deleting an absent id changes nothing |
| Storage.DeleteAfterAdd | utils/storage.ts:40-69 | deleting what was just added leaves what deleting before the add would |
| Storage.TakeOne | utils/storage.ts:122-123 | supply drops by one when positive and is otherwise unchanged |
| Storage.RecordDose | utils/storage.ts:99-131 | appends exactly one record with the given fields, earlier records unchanged; a taken dose decrements the first matching medication's positive supply by one; no other medication changes; a dose that is not taken, or an unknown id, leaves the list alone |
| Storage.RecordDoseKeepsSupplyNonNegative | utils/storage.ts:119-126 | non-negative supplies stay non-negative |
| Storage.TodaysDoses | utils/storage.ts:86-97 | exactly the records stamped on the same calendar day as now |
| Storage.TodaysDosesAfterRecord | utils/storage.ts:86-116 | a record appended with today's stamp comes last in today's records; one from another day changes nothing |
| Storage.DosesOf | app/home.tsx:235 | exactly the records of the given medication |
| Storage.DosesOfAppend | app/home.tsx:235 | one more record joins the medication's records at the end exactly when it is that medication's, so order and repeats are kept |
| Storage.Slots | utils/storage.ts:143-144 | every (schedule, time) pair appears, and nothing else; the count is the total number of times; order and repeats are fixed by the two lemmas below |
| Storage.SlotsAppend | utils/storage.ts:143 | the outer loop visits schedules in order: the pairs of a + b are those of a followed by those of b |
| Storage.SlotsOfOne | utils/storage.ts:144 | the inner loop visits one schedule's times in order, each once: its pairs are (schedule, times[j]) for j = 0, 1, … |
| Time.StartOfDay | utils/storage.ts:141 | today's midnight is at or before now, less than a day earlier, on the same day, and a whole number of days from the epoch |
| Time.SameDayWindow | utils/storage.ts:218-222 | `isSameDay` (and `toDateString()` equality) holds exactly when the second instant lies in the day-long window starting at the first one's midnight |
| Time.AtIsSetHours | utils/storage.ts:146-147 | `setHours(h, m, 0, 0)` on a day's date: a valid time stays on that day, h hours and m minutes after midnight; 60 minutes carry into the hour, and 24 hours into the next day |
| Time.CompareTimesSign | app/home.tsx:264 | the comparator's value is negative exactly when the first time is earlier by (hour, minute), zero exactly when the times are equal, and it changes sign when the arguments swap |
| Time.ParseClock | utils/storage.ts:145 | a clock exactly when the hour field and a present minute field are numbers |
| Time.ParseClockOf | utils/storage.ts:145 | two digit strings joined by ':' read as the clock of their decimal values |
| Time.ParseFormat24 | utils/storage.ts:145 | reading a zero-padded "HH:MM" gives the same clock back |
| Time.AtSameDay | utils/storage.ts:146-147 | a valid time of day set on today's date stays on today's calendar day |
| Time.TimeLeIsLexicographic | app/home.tsx:261-265 | the comparator `aHours - bHours \|\| aMinutes - bMinutes` orders by hour, then minute, and is total |
| Time.TimeLeIsInstantOrder | app/home.tsx:261-265 | for valid times, that order is the order of the instants on any one day |
| Text.NatToString | utils/timeConvertAmPm.ts:4-5 | `toString()` of a non-negative integer is a digit string of that value with no leading zero; 0 prints as "0" |
| Text.PadStart | utils/timeConvertAmPm.ts:5 | the result has at least the width, ends with the input, and starts with fill characters only |
| Text.ZeroPadValue | utils/timeConvertAmPm.ts:5 | padding with '0' keeps a digit string's value |
| Text.SplitHead | utils/timeConvertAmPm.ts:2 | the first two fields of `split`: separator-free, in order, and the second is absent exactly when the separator is |
| Text.SplitHeadOf | utils/timeConvertAmPm.ts:2 | splitting "a:b", with no ':' in a or b, gives a and b |
| Text.FirstWord | app/home.tsx:138 | `split(" ")[0]`: a space-free prefix of the text, followed by a space or the end |
| Text.FirstWordOf | app/home.tsx:138 | the first word of "w rest" is w when w holds no space |
| Text.ToNumber | utils/timeConvertAmPm.ts:2 | a number exactly when the text is all digits (the empty string included) |
| Text.NumberOfNatToString | utils/timeConvertAmPm.ts:2-5 | `Number` of a printed integer gives it back |
| Text.LeadingDigits | app/home.tsx:138 | the longest prefix of decimal digits: a digit prefix not followed by a digit |
| Text.ParseInt | app/home.tsx:138 | `parseInt` gives a number exactly when the text starts with a digit, or with a sign followed by a digit; a negative result needs a leading '-', and a leading '-' never gives a positive one |
| Text.ParseIntOfDigits | app/home.tsx:138-143 | `parseInt` reads a non-empty digit run followed by nothing or by a non-digit as its value, and with a leading minus sign as its negation |
| AmPm.Hour12 | utils/timeConvertAmPm.ts:4 | the displayed hour is in 1..12 and congruent to the hour mod 12; for hours under 24 it is 12 exactly at 0 and 12 |
| AmPm.Meridiem | utils/timeConvertAmPm.ts:3 | "PM" iff the hour is a number >= 12, else "AM" |
| AmPm.HourText | utils/timeConvertAmPm.ts:4 | the hour as printed: a digit string with no leading zero whose value is the 12-hour hour when the field is a number, "NaN" otherwise |
| AmPm.MinuteText | utils/timeConvertAmPm.ts:5 | the minute as printed: all digits exactly when the field is a number, then of its value, at least two characters, exactly two below 100; "NaN" otherwise |
| AmPm.ConvertToAmPm | utils/timeConvertAmPm.ts:1-6 | no text (the call throws a TypeError on the missing minute) exactly when the time holds no ':'; otherwise the output ends in " AM" or " PM", and in "PM" exactly when the hour field is a number >= 12 |
| AmPm.MissingMinuteThrows | utils/timeConvertAmPm.ts:2-5 | a time without ':' leaves the minute undefined, so the formatter throws and gives no text |
| AmPm.ConvertShape | utils/timeConvertAmPm.ts:1-6 | for a readable time the formatter returns text: 12-hour hour, ':', minutes zero-padded to two digits, ' ', suffix |
| AmPm.ShownRoundTrip | utils/timeConvertAmPm.ts:3-5 | the 12-hour text of a valid clock reads back as that clock |
| AmPm.AmPmRoundTrip | utils/timeConvertAmPm.ts:1-6 | the formatter loses nothing on a readable time with hour < 24 and minute < 60: it returns text, and that text reads back as the input time |
| AmPm.Examples | utils/timeConvertAmPm.ts:1-6 | "00:05" gives "12:05 AM", "12:00" gives "12:00 PM", "13:30" gives "1:30 PM" |
| Home.ParseDuration | app/home.tsx:138-143 | ongoing iff "Ongoing" or leading number -1; otherwise the leading number of the first word as days; unparsed when it has none |
| Home.ParseDurationOfDays | app/home.tsx:138-143 | "N days" reads as N days; "-1 days" reads as ongoing |
| Home.ActiveTodayFilter | app/home.tsx:134-148 | a schedule is listed exactly when today is at or after its start and either its duration is "Ongoing" or reads as -1, or `parseInt` of its first word gives N and today is at most N days after the start; a NaN duration is never listed |
| Home.NotActiveBeforeStart | app/home.tsx:137-147 | no schedule is listed before its start |
| Home.OngoingActiveFromStart | app/home.tsx:137-140 | an ongoing schedule is listed iff today >= start |
| Home.FixedActiveWindow | app/home.tsx:142-147 | a fixed schedule is listed iff start <= today <= start + N days, end inclusive |
| Home.FixedDurationDays | app/home.tsx:142-147 | N >= 0 days list the schedule at some instant of exactly the N + 1 calendar days from the start day |
| Home.FixedLastDay | app/home.tsx:142-147 | on the last of those days the schedule is listed only up to the start's time of day (and not before the start), so the window is N days long and the last day is only partly covered |
| Home.TodaysMedications | app/home.tsx:134-148 | exactly the schedules active at the load instant |
| Home.TodaysMedicationsAppend | app/home.tsx:134-148 | one more schedule joins the list at the end exactly when it is active, so order and repeats are kept |
| Home.TakeDose | app/home.tsx:192-212 | an unreadable time writes nothing; otherwise one taken record for today at hh:mm, stamped min(scheduled, now), and the first schedule with the id loses one unit of a positive supply while every other schedule stays as it was (an unknown id leaves the list alone) |
| Home.TakeDoseAnswersDueOccurrence | app/home.tsx:194-212 | taking a dose whose time has come makes that occurrence taken for the medication at every later time |
| Home.MissedRecordOrTakenReads | app/home.tsx:231-236 | any record of the medication stamped at or after an occurrence makes that occurrence read as taken among the medication's records, whatever its flag |
| Home.EarlyTakeLeavesOccurrenceOpen | app/home.tsx:200-212 | taking a dose before its time leaves that occurrence not taken, unless another record answers it |
| Home.EventsFor | app/home.tsx:227-247 | one row per slot, in order: the parsed time on the render day, and the status from that medication's records with grace 10 at the screen's clock; no result (the render's `toISOString` throws and the screen fails) when a time is unreadable |
| Home.DoseEvents | app/home.tsx:227-247 | the rows number exactly the listed schedules' times, each row built from its (schedule, time) pair |
| Home.OtherRecordsIgnored | app/home.tsx:235 | a record of another medication never changes a row |
| Home.InsertByTime | app/home.tsx:261-265 | inserting into sorted rows keeps them sorted and adds exactly that row |
| Home.SortByTime | app/home.tsx:261-265 | the displayed rows are sorted by (hour, minute) and are a permutation of the rows |
| Home.SortedRowsChronological | app/home.tsx:261-265 | sorted rows of valid times are in chronological order |
| Home.CompletedDoses | app/home.tsx:268 | 0 <= completed <= total; completed is 0 iff no row is taken |
| Home.CompletedDosesAppend | app/home.tsx:268 | the completed count of two lists of rows together is the sum of their counts |
| Home.CompletedDosesOne | app/home.tsx:268 | a single row counts 1 when taken and 0 otherwise, so with the append lemma the count is the number of taken rows |
| Home.AllCompleted | app/home.tsx:268 | completed equals total iff every row is taken |
| Home.Progress | app/home.tsx:269 | progress is in [0, 1]; it is 0 when there are no rows, and 1 iff every row is taken |
| Home.LoadMedications | app/home.tsx:122-150 | loading sweeps first: medications unchanged, old history kept as a prefix, and the new records are exactly the sweep's, one missed record per marked slot in loop order with the sweep's ids; the doses shown are exactly the swept history's records of the doses clock's day, and the schedules shown are exactly the swept list's schedules active at the filter clock |
| Home.SweptOccurrenceShowsTaken | app/home.tsx:124-130 | after loading, when the doses are read on the sweep's day, an occurrence the sweep marked missed is shown as taken at every screen time, whatever its dose time text |
| Home.TodaysRecordReadsTaken | app/home.tsx:124-130 | a record stamped today, at or after an occurrence of its medication, makes that occurrence read as taken among today's records |
| Home.MorningScenarioShowsTaken | app/home.tsx:124-130 | for any schedule whose one time is "08:00", loaded on the first day after 08:10, the 08:00 dose the sweep recorded as missed is shown as taken, not missed |

## Left out

- Device storage and JSON. Reads, writes, `clearAllData`, and the rule that
  a read failure yields an empty list are not modelled; each collection is
  the value it holds. Write errors re-thrown by the store operations are
  not modelled either. The sweep's outer `catch` is modelled only for the
  `toISOString` exception it can meet.
- Time zones, daylight saving, `Date` parsing of the start-date and
  timestamp strings, and invalid timestamps in records. Local time is taken
  at offset zero, and a start date is the instant it denotes.
- `Number` and `parseInt` beyond digit strings. Leading or trailing white
  space, signs and decimals in `Number`, and hexadecimal prefixes in
  `parseInt`, are treated as NaN or not modelled.
- Concurrency. Sweeps are started from several timers and focus hooks, and
  their read-modify-write cycles can lose updates. A single sequential
  caller is modelled.
- `markDoseAsMissed`. It only logs a message.
- Notifications, the calendar screen, authentication and app start-up. The
  calendar screen's status logic calls the status engine modelled here.
- Home screen rendering, animation and the confirmation alert. The
  floating-point `progress` is modelled as an exact real.
- JavaScript numbers. Every number here is an unbounded integer, not a
  double. Integers above 2^53 would round in `Number`. `toString()` prints
  1e21 and above in exponent form ("1e+21"). `setHours` past 8.64e15 ms
  either way gives an Invalid Date, so a huge hour would make
  `toISOString` throw and end the sweep rather than pass it by.
- Storage.RecordDoseKeepsSupplyNonNegative: holds for whole-number supplies
  only. A fractional supply such as 0.5 is positive and drops to -0.5 in the
  source; supplies are modelled as integers.
- Home.LoadMedications: the sweep, `getTodaysDoses` and the screen's filter
  each read the clock (utils/storage.ts:140, utils/storage.ts:89,
  app/home.tsx:133). They are three parameters. The doses shown are those
  of the doses clock's day, which is the sweep's day only when both readings
  fall on the same day; `Home.SweptOccurrenceShowsTaken` requires that.
- Home.EventsFor: each row reads the clock with its own `new Date()`
  inside `medication.times.map` (app/home.tsx:230). All rows share one
  `today` parameter, so a render that straddles midnight, placing later
  rows on the next day, is not modelled. `Home.DoseEvents` inherits this.
- Home.TakeDose: `handleTakeDose` reads the clock twice (app/home.tsx:195
  and 200). Both readings are one `now`, so a take just across midnight is
  not modelled.
- Home.SortByTime: the contract states sortedness and permutation, not
  stability (the order of rows with equal times).

=== FILE: ampm.dfy ===
/** `convertToAmPm`: a 24-hour "HH:MM" dose time shown as "h:mm AM/PM". */
module AmPm {
  import opened Wrappers
  import opened Text
  import opened Time

  /** `hour % 12 === 0 ? 12 : hour % 12`. */
  function Hour12(hour: nat): (h: nat)
    ensures 1 <= h <= 12
    ensures h % 12 == hour % 12
    ensures hour < 24 ==> (h == 12 <==> hour == 0 || hour == 12)
  {
    if hour % 12 == 0 then 12 else hour % 12
  }

  /** The suffix: "PM" for hours from 12 on, "AM" otherwise, and for NaN. */
  function Meridiem(hour: JsNumber): (s: string)
    ensures s == "PM" <==> hour.Num? && hour.value >= 12
    ensures s == "AM" <==> !(hour.Num? && hour.value >= 12)
  {
    if hour.Num? && hour.value >= 12 then "PM" else "AM"
  }

  /** `${hour12}`; a NaN hour prints as "NaN". */
  function HourText(hour: JsNumber): (s: string)
    ensures |s| >= 1
    ensures AllDigits(s) <==> hour.Num?
    ensures hour.Num? ==> DecimalValue(s) == Hour12(hour.value) && s[0] != '0'
    ensures hour.NaN? ==> s == "NaN"
  {
    match hour
    case NaN => "NaN"
    case Num(h) => NatToString(Hour12(h))
  }

  /** `minute.toString().padStart(2, "0")`; NaN prints as "NaN". */
  function MinuteText(minute: JsNumber): (s: string)
    ensures |s| >= 2
    ensures AllDigits(s) <==> minute.Num?
    ensures minute.Num? ==> DecimalValue(s) == minute.value
    ensures minute.Num? && minute.value < 100 ==> |s| == 2
    ensures minute.NaN? ==> s == "NaN"
  {
    match minute
    case NaN =>
      assert !IsDigit("NaN"[0]);
      "NaN"
    case Num(m) =>
      ZeroPadValue(NatToString(m), 2);
      NatToStringShort(m);
      PadStart(NatToString(m), 2, '0')
  }

  /** `convertToAmPm(time)`. A time without ':' leaves `minute` undefined,
      and `minute.toString()` throws a TypeError: `None`. A minute field
      that is present but not a number prints as "NaN". */
  function ConvertToAmPm(time: string): (r: Option<string>)
    ensures r.None? <==> SplitHead(time, ':').1.None?
    ensures r.Some? ==> |r.value| >= 6 && r.value[|r.value| - 3] == ' '
    ensures r.Some? ==>
              (r.value[|r.value| - 2..] == "PM"
               <==> (ToNumber(SplitHead(time, ':').0).Num? && ToNumber(SplitHead(time, ':').0).value >= 12))
    ensures r.Some? ==> r.value[|r.value| - 2..] == "PM" || r.value[|r.value| - 2..] == "AM"
  {
    var (h, m) := SplitHead(time, ':');
    if m.None? then None
    else
      var hour := ToNumber(h);
      var text := HourText(hour) + ":" + MinuteText(ToNumber(m.value)) + " " + Meridiem(hour);
      assert text[|text| - 2..] == Meridiem(hour);
      Some(text)
  }

  /** A time without ':' makes `convertToAmPm` throw. */
  lemma MissingMinuteThrows(time: string)
    requires ':' !in time
    ensures ConvertToAmPm(time) == None
  {
  }

  /** For a well-formed time the output is the 12-hour hour, a colon, the
      minute padded to two digits, a space and the suffix. */
  lemma ConvertShape(time: string, c: Clock)
    requires ParseClock(time) == Some(c)
    ensures ConvertToAmPm(time) == Some(Shown(c))
  {
  }

  /** The text shown for a parsed time. */
  function Shown(c: Clock): string {
    NatToString(Hour12(c.hour)) + ":" + PadStart(NatToString(c.minute), 2, '0')
    + " " + (if c.hour >= 12 then "PM" else "AM")
  }

  /** Reads a 12-hour "h:mm AM/PM" text back into a 24-hour clock. */
  function From12Hour(s: string): Option<Clock> {
    var i := IndexOf(s, ':');
    if i == |s| then None
    else
      var hs := s[..i];
      var rest := s[i + 1..];
      var j := IndexOf(rest, ' ');
      if j == |rest| then None
      else
        var ms := rest[..j];
        var suffix := rest[j + 1..];
        if hs == [] || ms == [] || !AllDigits(hs) || !AllDigits(ms) then None
        else Read12(DecimalValue(hs), DecimalValue(ms), suffix)
  }

  /** The 24-hour clock of a 12-hour hour, a minute and a suffix. */
  function Read12(h12: nat, m: nat, suffix: string): Option<Clock> {
    if h12 < 1 || h12 > 12 then None
    else if suffix == "AM" then Some(Clock(if h12 == 12 then 0 else h12, m))
    else if suffix == "PM" then Some(Clock(if h12 == 12 then 12 else h12 + 12, m))
    else None
  }

  /** Splitting "<digits>:<digits> <suffix>" finds the two digit runs. */
  lemma From12HourParts(hs: string, ms: string, suffix: string)
    requires hs != [] && ms != [] && AllDigits(hs) && AllDigits(ms)
    ensures From12Hour(hs + ":" + ms + " " + suffix)
            == Read12(DecimalValue(hs), DecimalValue(ms), suffix)
  {
    var rest := ms + " " + suffix;
    DigitsExclude(hs, ':');
    DigitsExclude(ms, ' ');
    IndexOfAfter(hs, ':', rest);
    IndexOfAfter(ms, ' ', suffix);
    var s := hs + ":" + ms + " " + suffix;
    assert s == hs + [':'] + rest;
    assert s[..|hs|] == hs && s[|hs| + 1..] == rest;
    assert rest == ms + [' '] + suffix;
    assert rest[..|ms|] == ms && rest[|ms| + 1..] == suffix;
  }

  lemma ShownRoundTrip(c: Clock)
    requires ValidClock(c)
    ensures From12Hour(Shown(c)) == Some(c)
  {
    var h12 := Hour12(c.hour);
    var hs := NatToString(h12);
    var ms := PadStart(NatToString(c.minute), 2, '0');
    var suffix := if c.hour >= 12 then "PM" else "AM";
    ZeroPadValue(NatToString(c.minute), 2);
    assert DecimalValue(hs) == h12 && DecimalValue(ms) == c.minute;
    assert Shown(c) == hs + ":" + ms + " " + suffix;
    From12HourParts(hs, ms, suffix);
    Read12Hour12(c);
  }

  /** Reading back the 12-hour hour and suffix of a valid clock gives the clock. */
  lemma Read12Hour12(c: Clock)
    requires ValidClock(c)
    ensures Read12(Hour12(c.hour), c.minute, if c.hour >= 12 then "PM" else "AM") == Some(c)
  {
  }

  /** The 12-hour text loses nothing: it reads back as the time it shows. */
  lemma AmPmRoundTrip(time: string, c: Clock)
    requires ParseClock(time) == Some(c) && ValidClock(c)
    ensures ConvertToAmPm(time).Some? && From12Hour(ConvertToAmPm(time).value) == Some(c)
  {
    ConvertShape(time, c);
    ShownRoundTrip(c);
  }

  /** Three sample conversions: just after midnight, noon, and an afternoon time. */
  lemma Examples()
    ensures ConvertToAmPm("00:05") == Some("12:05 AM")
    ensures ConvertToAmPm("12:00") == Some("12:00 PM")
    ensures ConvertToAmPm("13:30") == Some("1:30 PM")
  {
    MidnightExample();
    NoonExample();
    AfternoonExample();
  }

  lemma MidnightExample()
    ensures ConvertToAmPm("00:05") == Some("12:05 AM")
  {
    MidnightReads();
    MidnightShown();
    ConvertShape("00:05", Clock(0, 5));
  }

  lemma MidnightReads()
    ensures ParseClock("00:05") == Some(Clock(0, 5))
  {
    MidnightSpelling();
    ReadsAs("00", "05", 0, 5);
  }

  lemma MidnightShown()
    ensures Shown(Clock(0, 5)) == "12:05 AM"
  {
    MidnightSpelling();
    ShownAs(Clock(0, 5), "12", "05", "12:05 AM");
  }

  lemma MidnightSpelling()
    ensures "00:05" == "00" + ":" + "05"
    ensures "12:05 AM" == "12" + ":" + "05" + " " + "AM"
  {
  }

  lemma NoonExample()
    ensures ConvertToAmPm("12:00") == Some("12:00 PM")
  {
    NoonReads();
    NoonShown();
    ConvertShape("12:00", Clock(12, 0));
  }

  lemma NoonReads()
    ensures ParseClock("12:00") == Some(Clock(12, 0))
  {
    NoonSpelling();
    ReadsAs("12", "00", 12, 0);
  }

  lemma NoonShown()
    ensures Shown(Clock(12, 0)) == "12:00 PM"
  {
    NoonSpelling();
    ShownAs(Clock(12, 0), "12", "00", "12:00 PM");
  }

  lemma NoonSpelling()
    ensures "12:00" == "12" + ":" + "00"
    ensures "12:00 PM" == "12" + ":" + "00" + " " + "PM"
  {
  }

  lemma AfternoonExample()
    ensures ConvertToAmPm("13:30") == Some("1:30 PM")
  {
    AfternoonReads();
    AfternoonShown();
    ConvertShape("13:30", Clock(13, 30));
  }

  lemma AfternoonReads()
    ensures ParseClock("13:30") == Some(Clock(13, 30))
  {
    AfternoonSpelling();
    ReadsAs("13", "30", 13, 30);
  }

  lemma AfternoonShown()
    ensures Shown(Clock(13, 30)) == "1:30 PM"
  {
    AfternoonSpelling();
    ShownAs(Clock(13, 30), "1", "30", "1:30 PM");
  }

  lemma AfternoonSpelling()
    ensures "13:30" == "13" + ":" + "30"
    ensures "1:30 PM" == "1" + ":" + "30" + " " + "PM"
  {
  }

  /** A two-digit hour and minute text reads as the given clock. */
  lemma ReadsAs(hs: string, ms: string, h: nat, m: nat)
    requires |hs| == 2 && |ms| == 2 && AllDigits(hs) && AllDigits(ms)
    requires DigitValue(hs[0]) * 10 + DigitValue(hs[1]) == h
    requires DigitValue(ms[0]) * 10 + DigitValue(ms[1]) == m
    ensures ParseClock(hs + ":" + ms) == Some(Clock(h, m))
  {
    TwoDigitValue(hs);
    TwoDigitValue(ms);
    ParseClockOf(hs, ms);
  }

  lemma TwoDigitValue(s: string)
    requires |s| == 2 && AllDigits(s)
    ensures DecimalValue(s) == DigitValue(s[0]) * 10 + DigitValue(s[1])
  {
    var p := s[..1];
    assert s[..|s| - 1] == p;
    assert p[..0] == [] && p[0] == s[0];
    assert DecimalValue(p) == DigitValue(s[0]);
  }

  /** The 12-hour text of a clock, given the printed hour and minute. */
  lemma ShownAs(c: Clock, hs: string, ms: string, shown: string)
    requires 1 <= |hs| <= 2 && AllDigits(hs) && |ms| == 2 && AllDigits(ms)
    requires |hs| == 1 <==> Hour12(c.hour) < 10
    requires |hs| == 1 ==> DigitValue(hs[0]) == Hour12(c.hour)
    requires |hs| == 2 ==> hs[0] == '1' && DigitValue(hs[1]) == Hour12(c.hour) % 10
    requires DigitValue(ms[0]) == c.minute / 10 && DigitValue(ms[1]) == c.minute % 10
    requires shown == hs + ":" + ms + " " + (if c.hour >= 12 then "PM" else "AM")
    ensures Shown(c) == shown
  {
    HourDigits(Hour12(c.hour), hs);
    MinuteDigits(c.minute, ms);
  }

  lemma HourDigits(h: nat, hs: string)
    requires 1 <= h <= 12 && 1 <= |hs| <= 2 && AllDigits(hs)
    requires |hs| == 1 <==> h < 10
    requires |hs| == 1 ==> DigitValue(hs[0]) == h
    requires |hs| == 2 ==> hs[0] == '1' && DigitValue(hs[1]) == h % 10
    ensures NatToString(h) == hs
  {
    NatToStringSmall(h);
    if |hs| == 2 {
      assert h / 10 == 1;
    }
  }

  lemma MinuteDigits(m: nat, ms: string)
    requires |ms| == 2 && AllDigits(ms)
    requires DigitValue(ms[0]) == m / 10 && DigitValue(ms[1]) == m % 10
    ensures PadStart(NatToString(m), 2, '0') == ms
  {
    assert m < 100;
    NatToStringSmall(m);
    if m < 10 {
      var t := NatToString(m);
      assert ms[0] == '0' && ms[1] == t[0];
      assert PadStart(t, 2, '0') == ['0'] + t;
    }
  }
}

=== FILE: home.dfy ===
/** The pure fragments of the home screen: which schedules are listed
    today, what taking a dose records, the per-time dose events with their
    status, their order on screen and the progress counts. */
module Home {
  import opened Wrappers
  import opened Text
  import opened Seqs
  import opened Time
  import opened Storage
  import opened Status
  import opened Sweep
  import opened SweepExamples

  /** How the screen reads a schedule's duration text. */
  datatype Duration = Ongoing | FixedDays(days: int) | Unparsed

  /** "Ongoing", or a leading number of -1, is ongoing; otherwise the
      leading number of `parseInt(duration.split(" ")[0])` counts days, and
      a NaN there is `Unparsed`. */
  function ParseDuration(duration: string): (d: Duration)
    ensures d == Ongoing <==> duration == "Ongoing" || ParseInt(FirstWord(duration)) == Some(-1)
    ensures d.FixedDays? ==> ParseInt(FirstWord(duration)) == Some(d.days) && d.days != -1
    ensures d == Unparsed <==> duration != "Ongoing" && ParseInt(FirstWord(duration)).None?
  {
    if duration == "Ongoing" then Ongoing
    else match ParseInt(FirstWord(duration))
      case None => Unparsed
      case Some(n) => if n == -1 then Ongoing else FixedDays(n)
  }

  /** "N days" reads as N days, and "-1 …" as ongoing. */
  lemma ParseDurationOfDays(n: nat)
    ensures ParseDuration(NatToString(n) + " days") == FixedDays(n)
    ensures ParseDuration("-1 days") == Ongoing
  {
    DaysDuration(NatToString(n));
    MinusOneDuration();
  }

  lemma DaysDuration(digits: string)
    requires digits != [] && AllDigits(digits)
    ensures ParseDuration(digits + " days") == FixedDays(DecimalValue(digits))
  {
    var s := digits + " days";
    assert s == digits + " " + "days";
    DigitsExclude(digits, ' ');
    FirstWordOf(digits, "days");
    assert FirstWord(s) == digits + "";
    ParseIntOfDigits(digits, "");
    assert s != "Ongoing" by {
      assert s[0] == digits[0];
    }
  }

  lemma MinusOneDuration()
    ensures ParseDuration("-1 days") == Ongoing
  {
    assert "-1 days" == "-1" + " " + "days";
    FirstWordOf("-1", "days");
    assert "-" + "1" + "" == "-1";
    ParseIntOfDigits("1", "");
  }

  /** The "active today" filter of the home screen: after the start, and
      for a fixed duration no later than that many days after it. An
      unreadable duration makes the end date invalid, so never listed. */
  predicate ActiveToday(med: Medication, today: int) {
    match ParseDuration(med.duration)
    case Ongoing => today >= med.startDate
    case FixedDays(n) => today >= med.startDate && today <= med.startDate + n * MsPerDay
    case Unparsed => false
  }

  /** The filter in the screen's own terms: listed from the start date on,
      with no end when the duration is "Ongoing" or reads as -1, up to
      `parseInt` of its first word in days otherwise, and never when that
      is NaN. */
  lemma ActiveTodayFilter(med: Medication, today: int)
    ensures var n := ParseInt(FirstWord(med.duration));
            ActiveToday(med, today) <==>
              && today >= med.startDate
              && (|| med.duration == "Ongoing"
                  || n == Some(-1)
                  || (n.Some? && today <= med.startDate + n.value * MsPerDay))
  {
  }

  /** No schedule is listed before its start. */
  lemma NotActiveBeforeStart(med: Medication, today: int)
    requires today < med.startDate
    ensures !ActiveToday(med, today)
  {
  }

  /** An ongoing schedule is listed from its start on, with no end. */
  lemma OngoingActiveFromStart(med: Medication, today: int)
    requires ParseDuration(med.duration) == Ongoing
    ensures ActiveToday(med, today) <==> today >= med.startDate
  {
  }

  /** A fixed schedule is listed from its start up to and including the
      instant that many days later. */
  lemma FixedActiveWindow(med: Medication, n: int, today: int)
    requires ParseDuration(med.duration) == FixedDays(n)
    ensures ActiveToday(med, today) <==> med.startDate <= today <= med.startDate + n * MsPerDay
  {
  }

  /** A fixed duration of N >= 0 days lists the schedule on exactly N + 1
      calendar days: the start day and the N days after it. */
  lemma FixedDurationDays(med: Medication, n: int, day: int)
    requires ParseDuration(med.duration) == FixedDays(n) && n >= 0
    ensures (exists t :: DayOf(t) == day && ActiveToday(med, t))
            <==> DayOf(med.startDate) <= day <= DayOf(med.startDate) + n
  {
    var start := med.startDate;
    var end := start + n * MsPerDay;
    DayOfShift(start, n);
    if DayOf(start) <= day <= DayOf(start) + n {
      var t := if day == DayOf(start) then start else day * MsPerDay;
      DayOfShift(0, day);
      assert DayOf(t) == day;
      assert start <= t by {
        if day != DayOf(start) {
          assert StartOfDay(start) + MsPerDay <= t;
        }
      }
      assert t <= end by {
        assert StartOfDay(end) == day * MsPerDay + (DayOf(start) + n - day) * MsPerDay;
      }
      assert ActiveToday(med, t);
    }
    if exists t :: DayOf(t) == day && ActiveToday(med, t) {
      var t :| DayOf(t) == day && ActiveToday(med, t);
      DayOfMonotone(start, t);
      DayOfMonotone(t, end);
    }
  }

  /** On the last calendar day a fixed schedule reaches, it is listed only
      up to the start's time of day: the window is N days long, end
      included, so for N >= 1 that day is only partly covered, and for
      N = 0 the schedule is listed at the start instant alone. */
  lemma FixedLastDay(med: Medication, n: int, t: int)
    requires ParseDuration(med.duration) == FixedDays(n) && n >= 0
    requires DayOf(t) == DayOf(med.startDate) + n
    ensures ActiveToday(med, t)
            <==> med.startDate <= t && t - StartOfDay(t) <= med.startDate - StartOfDay(med.startDate)
  {
    var start := med.startDate;
    DayOfShift(start, n);
    assert StartOfDay(start + n * MsPerDay) == StartOfDay(start) + n * MsPerDay;
    assert StartOfDay(t) == StartOfDay(start) + n * MsPerDay;
  }

  /** Moving by whole days moves the calendar day by as many. */
  lemma DayOfShift(t: int, n: int)
    ensures DayOf(t + n * MsPerDay) == DayOf(t) + n
  {
    var r := t - StartOfDay(t);
    assert 0 <= r < MsPerDay;
    assert t + n * MsPerDay == (DayOf(t) + n) * MsPerDay + r;
  }

  lemma DayOfMonotone(a: int, b: int)
    requires a <= b
    ensures DayOf(a) <= DayOf(b)
  {
  }

  /** `todaysMedications`. */
  function TodaysMedications(meds: seq<Medication>, today: int): (r: seq<Medication>)
    ensures forall i :: 0 <= i < |r| ==> r[i] in meds && ActiveToday(r[i], today)
    ensures forall i :: 0 <= i < |meds| && ActiveToday(meds[i], today) ==> meds[i] in r
  {
    Filter(meds, (m: Medication) => ActiveToday(m, today))
  }

  /** Filtering one more schedule appends it exactly when it is active, so
      the listed schedules keep their order and their repeats. */
  lemma TodaysMedicationsAppend(meds: seq<Medication>, m: Medication, today: int)
    ensures TodaysMedications(meds + [m], today)
            == TodaysMedications(meds, today) + (if ActiveToday(m, today) then [m] else [])
  {
    var p := (x: Medication) => ActiveToday(x, today);
    FilterAppend(meds, [m], p);
    assert Filter([m], p) == (if p(m) then [m] else []) + Filter([m][1..], p);
  }

  /** `handleTakeDose(medication, time)` with the clock reading `now`. An
      unreadable time makes `toISOString` throw before anything is written;
      the error is reported and the store is unchanged. */
  function TakeDose(st: Store, med: Medication, time: string, now: int, id: string): (r: Store)
    ensures ParseClock(time).None? ==> r == st
    ensures ParseClock(time).Some? ==>
              var scheduled := At(now, ParseClock(time).value);
              && |r.history| == |st.history| + 1
              && r.history[..|st.history|] == st.history
              && var d := r.history[|st.history|];
                 && d.medicationId == med.id && d.taken
                 && d.scheduledTime == Some(scheduled)
                 && d.timestamp <= scheduled && d.timestamp <= now
                 && (d.timestamp == scheduled || d.timestamp == now)
    ensures |r.medications| == |st.medications|
    ensures FindIndex(st.medications, med.id).None? ==> r.medications == st.medications
    ensures ParseClock(time).Some? && FindIndex(st.medications, med.id).Some? ==>
              var i := FindIndex(st.medications, med.id).value;
              var m := st.medications[i];
              && r.medications[i] == m.(currentSupply := TakeOne(m.currentSupply))
              && forall j :: 0 <= j < |st.medications| && j != i ==> r.medications[j] == st.medications[j]
  {
    match ParseClock(time)
    case None => st
    case Some(c) =>
      var scheduled := At(now, c);
      var doseTime := if scheduled < now then scheduled else now;
      RecordDose(st, med.id, true, doseTime, Some(scheduled), id)
  }

  /** Taking a dose whose time has come makes the occurrence read as taken,
      at every later reading of the clock. */
  lemma TakeDoseAnswersDueOccurrence(st: Store, med: Medication, time: string, now: int, id: string,
                                     graceMinutes: int, currentTime: int)
    requires ParseClock(time).Some? && At(now, ParseClock(time).value) <= now
    ensures var r := TakeDose(st, med, time, now, id);
            GetDoseStatus(At(now, ParseClock(time).value), DosesOf(r.history, med.id),
                          graceMinutes, currentTime) == Taken
  {
    var r := TakeDose(st, med, time, now, id);
    var d := r.history[|st.history|];
    assert d in r.history;
    MissedRecordOrTakenReads(At(now, ParseClock(time).value), r.history, |st.history|, med.id,
                             graceMinutes, currentTime);
  }

  lemma MissedRecordOrTakenReads(scheduled: int, history: seq<DoseRecord>, k: nat, id: string,
                                 graceMinutes: int, currentTime: int)
    requires k < |history| && history[k].medicationId == id && history[k].timestamp >= scheduled
    ensures GetDoseStatus(scheduled, DosesOf(history, id), graceMinutes, currentTime) == Taken
  {
    var doses := DosesOf(history, id);
    assert history[k] in doses;
    var i :| 0 <= i < |doses| && doses[i] == history[k];
  }

  /** Taking a dose before its time stamps the record with the present,
      which is earlier than the occurrence: unless some other record already
      answers it, the occurrence still does not read as taken. */
  lemma EarlyTakeLeavesOccurrenceOpen(st: Store, med: Medication, time: string, now: int, id: string,
                                      graceMinutes: int, currentTime: int)
    requires ParseClock(time).Some?
    requires now < At(now, ParseClock(time).value)
    requires !Answered(DosesOf(st.history, med.id), At(now, ParseClock(time).value))
    ensures var r := TakeDose(st, med, time, now, id);
            GetDoseStatus(At(now, ParseClock(time).value), DosesOf(r.history, med.id),
                          graceMinutes, currentTime) != Taken
  {
    var r := TakeDose(st, med, time, now, id);
    var d := r.history[|st.history|];
    assert r.history == st.history + [d];
    DosesOfAppend(st.history, d, med.id);
    AnsweredAppend(DosesOf(st.history, med.id), d, At(now, ParseClock(time).value));
  }

  /** The grace period the home screen passes to the status engine. */
  const HomeGraceMinutes: int := 10

  /** One row of the home screen's dose list. */
  datatype DoseEvent = DoseEvent(
    medication: Medication,
    time: string,
    clock: Clock,
    status: DoseStatus,
    scheduledTime: int)

  /** `e` is the row for `slot`: the time on the day of `today` and the
      status from that medication's own records only. */
  ghost predicate EventOf(e: DoseEvent, slot: Slot, doses: seq<DoseRecord>, today: int, currentTime: int) {
    && ParseClock(slot.time) == Some(e.clock)
    && e.medication == slot.med
    && e.time == slot.time
    && e.scheduledTime == At(today, e.clock)
    && e.status == GetDoseStatus(e.scheduledTime, DosesOf(doses, slot.med.id), HomeGraceMinutes, currentTime)
  }

  /** Some dose time does not parse. */
  ghost predicate SomeTimeUnreadable(slots: seq<Slot>) {
    exists j :: 0 <= j < |slots| && ParseClock(slots[j].time).None?
  }

  function EventsFor(slots: seq<Slot>, doses: seq<DoseRecord>, today: int, currentTime: int)
    : (r: Option<seq<DoseEvent>>)
    ensures r.None? <==> SomeTimeUnreadable(slots)
    ensures r.Some? ==> |r.value| == |slots|
    ensures r.Some? ==> forall j :: 0 <= j < |slots| ==> EventOf(r.value[j], slots[j], doses, today, currentTime)
    decreases |slots|
  {
    if slots == [] then Some([])
    else match ParseClock(slots[0].time)
      case None => None
      case Some(c) =>
        var scheduled := At(today, c);
        var status := GetDoseStatus(scheduled, DosesOf(doses, slots[0].med.id), HomeGraceMinutes, currentTime);
        var e := DoseEvent(slots[0].med, slots[0].time, c, status, scheduled);
        UnreadableInTail(slots);
        match EventsFor(slots[1..], doses, today, currentTime)
        case None => None
        case Some(rest) =>
          EventsCons(slots, doses, today, currentTime, e, rest);
          Some([e] + rest)
  }

  lemma UnreadableInTail(slots: seq<Slot>)
    requires slots != []
    ensures SomeTimeUnreadable(slots) <==>
            ParseClock(slots[0].time).None? || SomeTimeUnreadable(slots[1..])
  {
    if SomeTimeUnreadable(slots[1..]) {
      var j :| 0 <= j < |slots[1..]| && ParseClock(slots[1..][j].time).None?;
      assert slots[j + 1] == slots[1..][j];
    }
    if SomeTimeUnreadable(slots) && ParseClock(slots[0].time).Some? {
      var j :| 0 <= j < |slots| && ParseClock(slots[j].time).None?;
      assert slots[1..][j - 1] == slots[j];
    }
  }

  lemma EventsCons(slots: seq<Slot>, doses: seq<DoseRecord>, today: int, currentTime: int,
                   e: DoseEvent, rest: seq<DoseEvent>)
    requires slots != [] && EventOf(e, slots[0], doses, today, currentTime)
    requires |rest| == |slots| - 1
    requires forall j :: 0 <= j < |rest| ==> EventOf(rest[j], slots[1..][j], doses, today, currentTime)
    ensures forall j :: 0 <= j < |slots| ==> EventOf(([e] + rest)[j], slots[j], doses, today, currentTime)
  {
    forall j | 0 <= j < |slots|
      ensures EventOf(([e] + rest)[j], slots[j], doses, today, currentTime)
    {
      if j > 0 {
        assert slots[j] == slots[1..][j - 1];
        assert ([e] + rest)[j] == rest[j - 1];
      }
    }
  }

  /** `doseEvents`: one row per dose time of every schedule listed today;
      `today` is the date the rows are placed on and `currentTime` the
      screen's ticking clock. An unreadable time fails the whole list. */
  function DoseEvents(todayMeds: seq<Medication>, doses: seq<DoseRecord>, today: int, currentTime: int)
    : (r: Option<seq<DoseEvent>>)
    ensures r.Some? ==> |r.value| == TotalTimes(todayMeds)
    ensures r.Some? ==> forall j :: 0 <= j < |r.value| ==>
              EventOf(r.value[j], Slots(todayMeds)[j], doses, today, currentTime)
    ensures r.None? <==> SomeTimeUnreadable(Slots(todayMeds))
  {
    EventsFor(Slots(todayMeds), doses, today, currentTime)
  }

  /** A record of another medication never changes a row. */
  lemma {:induction false} OtherRecordsIgnored(slots: seq<Slot>, doses: seq<DoseRecord>, d: DoseRecord,
                            today: int, currentTime: int)
    requires forall j :: 0 <= j < |slots| ==> slots[j].med.id != d.medicationId
    ensures EventsFor(slots, doses + [d], today, currentTime) == EventsFor(slots, doses, today, currentTime)
    decreases |slots|
  {
    if slots != [] {
      var id := slots[0].med.id;
      var p := (x: DoseRecord) => x.medicationId == id;
      FilterAppend(doses, [d], p);
      assert Filter([d], p) == [] + Filter([d][1..], p);
      assert DosesOf(doses + [d], id) == DosesOf(doses, id);
      OtherRecordsIgnored(slots[1..], doses, d, today, currentTime);
    }
  }

  /** The rows are in the order of the home screen's comparator. */
  ghost predicate SortedByTime(evs: seq<DoseEvent>) {
    forall i, j :: 0 <= i < j < |evs| ==> TimeLe(evs[i].clock, evs[j].clock)
  }

  function InsertByTime(e: DoseEvent, sorted: seq<DoseEvent>): (r: seq<DoseEvent>)
    requires SortedByTime(sorted)
    ensures SortedByTime(r)
    ensures multiset(r) == multiset(sorted) + multiset{e}
    ensures forall i :: 0 <= i < |r| ==> r[i] == e || r[i] in sorted
    decreases |sorted|
  {
    if sorted == [] || TimeLe(e.clock, sorted[0].clock) then [e] + sorted
    else
      var rest := InsertByTime(e, sorted[1..]);
      assert sorted == [sorted[0]] + sorted[1..];
      HeadBelowInsert(e, sorted, rest);
      PrependSorted(sorted[0], rest);
      [sorted[0]] + rest
  }

  /** The head of a sorted list that `e` does not precede stays below
      everything the insertion into the tail produced. */
  lemma HeadBelowInsert(e: DoseEvent, sorted: seq<DoseEvent>, rest: seq<DoseEvent>)
    requires SortedByTime(sorted) && sorted != [] && !TimeLe(e.clock, sorted[0].clock)
    requires forall i :: 0 <= i < |rest| ==> rest[i] == e || rest[i] in sorted[1..]
    ensures forall i :: 0 <= i < |rest| ==> TimeLe(sorted[0].clock, rest[i].clock)
  {
    TimeLeIsLexicographic(e.clock, sorted[0].clock);
    forall i | 0 <= i < |rest|
      ensures TimeLe(sorted[0].clock, rest[i].clock)
    {
      if rest[i] != e {
        var k :| 0 <= k < |sorted| - 1 && sorted[1..][k] == rest[i];
        assert sorted[k + 1] == rest[i];
      }
    }
  }

  lemma PrependSorted(x: DoseEvent, rest: seq<DoseEvent>)
    requires SortedByTime(rest)
    requires forall i :: 0 <= i < |rest| ==> TimeLe(x.clock, rest[i].clock)
    ensures SortedByTime([x] + rest)
  {
  }

  /** `sortedDoseEvents`: the rows ordered by (hour, minute), as a
      rearrangement of the same rows. */
  function SortByTime(evs: seq<DoseEvent>): (r: seq<DoseEvent>)
    ensures SortedByTime(r)
    ensures multiset(r) == multiset(evs)
    decreases |evs|
  {
    if evs == [] then []
    else
      assert evs == [evs[0]] + evs[1..];
      InsertByTime(evs[0], SortByTime(evs[1..]))
  }

  /** Sorted rows of valid times are in the order of their instants. */
  lemma SortedRowsChronological(evs: seq<DoseEvent>, today: int)
    requires forall i :: 0 <= i < |evs| ==> ValidClock(evs[i].clock)
    ensures var r := SortByTime(evs);
            forall i, j :: 0 <= i < j < |r| ==> At(today, r[i].clock) <= At(today, r[j].clock)
  {
    var r := SortByTime(evs);
    forall i, j | 0 <= i < j < |r|
      ensures At(today, r[i].clock) <= At(today, r[j].clock)
    {
      assert r[i] in multiset(evs) && r[j] in multiset(evs);
      TimeLeIsInstantOrder(today, r[i].clock, r[j].clock);
    }
  }

  /** `event.status === 'taken'`. */
  predicate RowTaken(e: DoseEvent) {
    e.status == Taken
  }

  /** `completedDoses`: the rows whose status is taken. */
  function CompletedDoses(evs: seq<DoseEvent>): (n: nat)
    ensures n <= |evs|
    ensures n == 0 <==> forall i :: 0 <= i < |evs| ==> evs[i].status != Taken
  {
    var taken := Filter(evs, RowTaken);
    assert |taken| > 0 ==> taken[0] in evs;
    |taken|
  }

  /** The count adds up over any split of the rows ... */
  lemma CompletedDosesAppend(a: seq<DoseEvent>, b: seq<DoseEvent>)
    ensures CompletedDoses(a + b) == CompletedDoses(a) + CompletedDoses(b)
  {
    FilterAppend(a, b, RowTaken);
  }

  /** ... and one row counts 1 exactly when it is taken, so the count is
      the number of taken rows. */
  lemma CompletedDosesOne(e: DoseEvent)
    ensures CompletedDoses([e]) == if e.status == Taken then 1 else 0
  {
    assert [e][1..] == [];
  }

  /** Every row is taken exactly when the count reaches the total. */
  lemma AllCompleted(evs: seq<DoseEvent>)
    ensures CompletedDoses(evs) == |evs| <==> forall i :: 0 <= i < |evs| ==> evs[i].status == Taken
  {
    FilterKeepsAll(evs, RowTaken);
  }

  /** `progress`: the taken share of the rows, 0 when there are none. */
  function Progress(evs: seq<DoseEvent>): (p: real)
    ensures 0.0 <= p <= 1.0
    ensures |evs| == 0 ==> p == 0.0
    ensures |evs| > 0 ==> (p == 1.0 <==> CompletedDoses(evs) == |evs|)
  {
    var total := |evs|;
    var completed := CompletedDoses(evs);
    if total > 0 then
      ShareBounds(completed as real, total as real);
      completed as real / total as real
    else 0.0
  }

  lemma ShareBounds(part: real, whole: real)
    requires 0.0 <= part <= whole && whole > 0.0
    ensures 0.0 <= part / whole <= 1.0
    ensures part / whole == 1.0 <==> part == whole
  {
    var q := part / whole;
    assert q * whole == part;
  }

  /** What `loadMedications` leaves in the screen's state: the store after
      the sweep, the day's records and the schedules listed today. */
  datatype Loaded = Loaded(store: Store, todaysDoses: seq<DoseRecord>, todaysMedications: seq<Medication>)

  /** `loadMedications`. It reads the clock three times: the sweep's `now`,
      the `new Date()` inside `getTodaysDoses`, and the `today` of the
      active filter, in that order. */
  function LoadMedications(st: Store, sweepNow: int, dosesNow: int, filterNow: int, newId: nat -> string)
    : (r: Loaded)
    ensures r.store.medications == st.medications
    ensures |st.history| <= |r.store.history| && r.store.history[..|st.history|] == st.history
    ensures forall k :: |st.history| <= k < |r.store.history| ==>
              MissedRecordAmong(r.store.history[k], Slots(st.medications), st.history, sweepNow)
    ensures AppendedFor(r.store.history, |st.history|, MarkedSlots(Slots(st.medications), st.history, sweepNow),
                        st.history, sweepNow, newId)
    ensures r.todaysDoses == TodaysDoses(r.store.history, dosesNow)
    ensures r.todaysMedications == TodaysMedications(r.store.medications, filterNow)
  {
    var swept := CheckMissedDoses(st, sweepNow, newId);
    Loaded(swept, TodaysDoses(swept.history, dosesNow), TodaysMedications(swept.medications, filterNow))
  }

  /** An occurrence the sweep marks as missed reads as TAKEN on the home
      screen afterwards, at every reading of the screen's clock, provided
      the day's records are read on the day of the sweep: the synthetic
      record is stamped at the end of the grace window, which is at or after
      the scheduled instant, and the status engine does not look at the
      record's `taken` flag. */
  lemma SweptOccurrenceShowsTaken(st: Store, sweepNow: int, dosesNow: int, filterNow: int,
                                  newId: nat -> string, j: nat, currentTime: int)
    requires j < Reach(Slots(st.medications), st.history)
    requires Marks(Slots(st.medications)[j], st.history, sweepNow)
    requires IsSameDay(sweepNow, dosesNow)
    ensures var loaded := LoadMedications(st, sweepNow, dosesNow, filterNow, newId);
            var slot := Slots(st.medications)[j];
            var scheduled := At(sweepNow, ParseClock(slot.time).value);
            GetDoseStatus(scheduled, DosesOf(loaded.todaysDoses, slot.med.id), HomeGraceMinutes,
                          currentTime) == Taken
  {
    var slots := Slots(st.medications);
    var slot := slots[j];
    var scheduled := At(sweepNow, ParseClock(slot.time).value);
    var swept := CheckMissedDoses(st, sweepNow, newId);
    CheckMissedDosesComplete(st, sweepNow, newId, j);
    var k :| |st.history| <= k < |swept.history| && MissedRecordFor(swept.history[k], slot, st.history, sweepNow);
    MissedRecordIsToday(swept.history[k], slot, st.history, sweepNow);
    TodaysRecordReadsTaken(swept.history, k, scheduled, slot.med.id, dosesNow, currentTime);
  }

  /** A record of today, stamped at or after an occurrence, makes that
      occurrence read as taken among the day's records. */
  lemma TodaysRecordReadsTaken(history: seq<DoseRecord>, k: nat, scheduled: int, id: string,
                               now: int, currentTime: int)
    requires k < |history| && history[k].medicationId == id
    requires history[k].timestamp >= scheduled && IsSameDay(history[k].timestamp, now)
    ensures GetDoseStatus(scheduled, DosesOf(TodaysDoses(history, now), id), HomeGraceMinutes,
                          currentTime) == Taken
  {
    var todays := TodaysDoses(history, now);
    assert history[k] in todays;
    var i :| 0 <= i < |todays| && todays[i] == history[k];
    MissedRecordOrTakenReads(scheduled, todays, i, id, HomeGraceMinutes, currentTime);
  }

  /** The sweep's record is stamped on the day of the sweep, at or after
      the occurrence it answers: the occurrence is not before that day's
      midnight, and the stamp is before the sweep's clock. */
  lemma MissedRecordIsToday(d: DoseRecord, slot: Slot, snapshot: seq<DoseRecord>, now: int)
    requires MissedRecordFor(d, slot, snapshot, now)
    ensures IsSameDay(d.timestamp, now)
    ensures d.medicationId == slot.med.id
    ensures d.timestamp >= At(now, ParseClock(slot.time).value)
  {
    var c := ParseClock(slot.time).value;
    assert StartOfDay(now) <= At(now, c);
    SameDayBetween(StartOfDay(now), d.timestamp, now);
  }

  /** The morning example on the home screen: a schedule whose one time is
      "08:00", loaded on the first day after 08:10, with the
      day's records read on that day too. The sweep records the 08:00 dose
      with `taken` false, yet the row shows it as taken. */
  lemma MorningScenarioShowsTaken(med: Medication, newId: nat -> string, now: int, dosesNow: int,
                                  filterNow: int, currentTime: int)
    requires med.times == ["08:00"]
    requires 8 * MsPerHour + 10 * MsPerMinute < now < MsPerDay
    requires 0 <= dosesNow < MsPerDay
    ensures var loaded := LoadMedications(Store([med], []), now, dosesNow, filterNow, newId);
            GetDoseStatus(8 * MsPerHour, DosesOf(loaded.todaysDoses, med.id), HomeGraceMinutes, currentTime)
            == Taken
  {
    var st := Store([med], []);
    var swept := CheckMissedDoses(st, now, newId);
    var d := DoseRecord(newId(0), med.id, 8 * MsPerHour + 10 * MsPerMinute, false, Some(8 * MsPerHour));
    assert swept.history == [d] by {
      MorningScenario(med, newId, now);
    }
    var todays := TodaysDoses(swept.history, dosesNow);
    assert todays[0] == d by {
      FirstDay(d.timestamp);
      FirstDay(dosesNow);
      assert d in todays;
    }
    assert LoadMedications(st, now, dosesNow, filterNow, newId).todaysDoses == todays;
    MissedRecordOrTakenReads(8 * MsPerHour, todays, 0, med.id, HomeGraceMinutes, currentTime);
  }
}

=== FILE: seqs.dfy ===
/** Sequence helpers shared by the store and the home screen: the
    `Array.prototype.filter` they all rely on, defined once. */
module Seqs {

  /** `s.filter(p)`: the elements of `s` that satisfy `p`, in order. */
  function Filter<T>(s: seq<T>, p: T -> bool): (r: seq<T>)
    ensures |r| <= |s|
    ensures forall i :: 0 <= i < |r| ==> r[i] in s && p(r[i])
    ensures forall i :: 0 <= i < |s| && p(s[i]) ==> s[i] in r
    decreases |s|
  {
    if s == [] then []
    else (if p(s[0]) then [s[0]] else []) + Filter(s[1..], p)
  }

  /** Filtering distributes over concatenation: the kept elements keep
      their relative order. */
  lemma {:induction false} FilterAppend<T>(a: seq<T>, b: seq<T>, p: T -> bool)
    ensures Filter(a + b, p) == Filter(a, p) + Filter(b, p)
    decreases |a|
  {
    if a == [] {
      assert a + b == b;
    } else {
      assert (a + b)[1..] == a[1..] + b;
      FilterAppend(a[1..], b, p);
    }
  }

  /** Nothing is dropped exactly when every element satisfies `p`. */
  lemma {:induction false} FilterKeepsAll<T>(s: seq<T>, p: T -> bool)
    ensures |Filter(s, p)| == |s| <==> forall i :: 0 <= i < |s| ==> p(s[i])
    decreases |s|
  {
    if s != [] {
      FilterKeepsAll(s[1..], p);
      if !p(s[0]) {
        assert |Filter(s, p)| == |Filter(s[1..], p)| <= |s| - 1;
      } else {
        assert forall i :: 1 <= i < |s| ==> s[i] == s[1..][i - 1];
      }
    }
  }

  /** When every element satisfies `p`, filtering is the identity. */
  lemma {:induction false} FilterIdentity<T>(s: seq<T>, p: T -> bool)
    requires forall i :: 0 <= i < |s| ==> p(s[i])
    ensures Filter(s, p) == s
    decreases |s|
  {
    if s != [] {
      assert forall i :: 0 <= i < |s[1..]| ==> s[1..][i] == s[i + 1];
      FilterIdentity(s[1..], p);
      assert [s[0]] + s[1..] == s;
    }
  }
}

=== FILE: status.dfy ===
/** The status engine: `getDoseStatus`, a total four-way classifier of one
    scheduled occurrence given that medication's records, a grace period in
    minutes and the current instant. It keeps no state of its own. */
module Status {
  import opened Time
  import opened Storage

  datatype DoseStatus = Taken | Pending | Missed | Upcoming

  /** Some record is stamped at or after the scheduled instant. Only the
      timestamp is consulted: the record's `taken` flag and its
      `scheduledTime` are not. */
  ghost predicate Answered(doses: seq<DoseRecord>, scheduled: int) {
    exists i :: 0 <= i < |doses| && doses[i].timestamp >= scheduled
  }

  /** `doses.some(dose => new Date(dose.timestamp) >= scheduled)`. */
  function AnyStampedFrom(doses: seq<DoseRecord>, scheduled: int): (b: bool)
    ensures b <==> Answered(doses, scheduled)
    decreases |doses|
  {
    if doses == [] then false
    else doses[0].timestamp >= scheduled || AnyStampedFrom(doses[1..], scheduled)
  }

  /** `getDoseStatus(scheduledTime, doses, gracePeriodMinutes, currentTime)`. */
  function GetDoseStatus(scheduled: int, doses: seq<DoseRecord>, graceMinutes: int, now: int): (st: DoseStatus)
    ensures st == Taken <==> Answered(doses, scheduled)
    ensures st == Pending <==>
              !Answered(doses, scheduled) && 0 <= now - scheduled <= graceMinutes * MsPerMinute
    ensures st == Missed <==>
              && !Answered(doses, scheduled)
              && now - scheduled > graceMinutes * MsPerMinute
              && IsSameDay(now, scheduled)
  {
    var graceMs := graceMinutes * 60 * 1000;
    if AnyStampedFrom(doses, scheduled) then Taken
    else
      var diff := now - scheduled;
      if 0 <= diff <= graceMs then Pending
      else if diff > graceMs && IsSameDay(now, scheduled) then Missed
      else Upcoming
  }

  /** With a non-negative grace period, `upcoming` covers exactly the future
      occurrences and the stale ones of an earlier day that nothing answered. */
  lemma UpcomingMeansFutureOrStale(scheduled: int, doses: seq<DoseRecord>, graceMinutes: int, now: int)
    requires graceMinutes >= 0
    ensures GetDoseStatus(scheduled, doses, graceMinutes, now) == Upcoming <==>
              && !Answered(doses, scheduled)
              && (now < scheduled
                  || (now - scheduled > graceMinutes * MsPerMinute && !IsSameDay(now, scheduled)))
  {
  }

  /** The same records with every `taken` flag cleared. */
  function AsMissed(doses: seq<DoseRecord>): (r: seq<DoseRecord>)
    ensures |r| == |doses|
    ensures forall i :: 0 <= i < |r| ==> r[i] == doses[i].(taken := false)
  {
    seq(|doses|, i requires 0 <= i < |doses| => doses[i].(taken := false))
  }

  /** The classifier never reads the `taken` flag: clearing every flag
      changes no status. */
  lemma StatusIgnoresTakenFlag(scheduled: int, doses: seq<DoseRecord>, graceMinutes: int, now: int)
    ensures GetDoseStatus(scheduled, AsMissed(doses), graceMinutes, now)
            == GetDoseStatus(scheduled, doses, graceMinutes, now)
  {
    var flagged := AsMissed(doses);
    if Answered(doses, scheduled) {
      var i :| 0 <= i < |doses| && doses[i].timestamp >= scheduled;
      assert flagged[i].timestamp >= scheduled;
    }
    if Answered(flagged, scheduled) {
      var i :| 0 <= i < |flagged| && flagged[i].timestamp >= scheduled;
      assert doses[i].timestamp >= scheduled;
    }
  }

  /** A record the sweep writes for a missed occurrence (stamped at the end
      of its grace window, `taken` false) makes that occurrence read as
      `taken` from then on, at every current time. */
  lemma MissedRecordReadsAsTaken(scheduled: int, doses: seq<DoseRecord>, d: DoseRecord,
                                 graceMinutes: int, now: int)
    requires d in doses
    requires !d.taken && d.timestamp >= scheduled
    ensures GetDoseStatus(scheduled, doses, graceMinutes, now) == Taken
  {
    var i :| 0 <= i < |doses| && doses[i] == d;
  }

  /** A record that answers an occurrence also answers every earlier one. */
  lemma LaterAnswerCoversEarlier(earlier: int, later: int, doses: seq<DoseRecord>,
                                 graceMinutes: int, now: int, now': int)
    requires earlier <= later
    requires GetDoseStatus(later, doses, graceMinutes, now) == Taken
    ensures GetDoseStatus(earlier, doses, graceMinutes, now') == Taken
  {
    var i :| 0 <= i < |doses| && doses[i].timestamp >= later;
  }

  /** More records can only turn a status into `taken`; otherwise it stays. */
  lemma MoreRecordsOnlyAnswer(scheduled: int, doses: seq<DoseRecord>, more: seq<DoseRecord>,
                              graceMinutes: int, now: int)
    ensures var before := GetDoseStatus(scheduled, doses, graceMinutes, now);
            var after := GetDoseStatus(scheduled, doses + more, graceMinutes, now);
            after == Taken || after == before
    ensures GetDoseStatus(scheduled, doses, graceMinutes, now) == Taken ==>
              GetDoseStatus(scheduled, doses + more, graceMinutes, now) == Taken
  {
    if Answered(doses, scheduled) {
      var i :| 0 <= i < |doses| && doses[i].timestamp >= scheduled;
      assert (doses + more)[i] == doses[i];
    }
  }

  /** One more record answers an occurrence exactly when it is stamped at
      or after it, or the earlier records already did. */
  lemma AnsweredAppend(doses: seq<DoseRecord>, d: DoseRecord, scheduled: int)
    ensures Answered(doses + [d], scheduled) <==> Answered(doses, scheduled) || d.timestamp >= scheduled
  {
    var all := doses + [d];
    if Answered(all, scheduled) && d.timestamp < scheduled {
      var i :| 0 <= i < |all| && all[i].timestamp >= scheduled;
      assert i < |doses| && all[i] == doses[i];
    }
    if Answered(doses, scheduled) {
      var i :| 0 <= i < |doses| && doses[i].timestamp >= scheduled;
      assert all[i] == doses[i];
    }
    assert all[|doses|] == d;
  }

  /** Position of a status along one day: upcoming, pending, missed. */
  function Stage(st: DoseStatus): nat {
    match st
    case Upcoming => 0
    case Pending => 1
    case Missed => 2
    case Taken => 3
  }

  /** Within the occurrence's own day and with no new records, the status
      only moves forward: upcoming, then pending, then missed. */
  lemma StatusAdvancesWithClock(scheduled: int, doses: seq<DoseRecord>, graceMinutes: int,
                                now: int, later: int)
    requires graceMinutes >= 0
    requires now <= later
    requires IsSameDay(now, scheduled) && IsSameDay(later, scheduled)
    ensures Stage(GetDoseStatus(scheduled, doses, graceMinutes, now))
            <= Stage(GetDoseStatus(scheduled, doses, graceMinutes, later))
  {
  }

  /** Sample cases with a ten-minute grace period and no records. */
  lemma TenMinuteGraceExamples(scheduled: int)
    requires IsSameDay(scheduled, scheduled + 15 * MsPerMinute)
    ensures GetDoseStatus(scheduled, [], 10, scheduled + 5 * MsPerMinute) == Pending
    ensures GetDoseStatus(scheduled, [], 10, scheduled + 10 * MsPerMinute) == Pending
    ensures GetDoseStatus(scheduled, [], 10, scheduled + 15 * MsPerMinute) == Missed
    ensures GetDoseStatus(scheduled, [], 10, scheduled - MsPerMinute) == Upcoming
  {
  }
}

=== FILE: storage.dfy ===
/** The event store: the medication list and the dose history, with every
    persisted operation modelled as a function from the old collections to
    the new ones. Reading and writing the device store (and its JSON
    encoding) is not modelled; a collection is the value it holds. */
module Storage {
  import opened Wrappers
  import opened Seqs
  import opened Time

  /** A medication schedule. `startDate` is the instant the start-date
      string denotes; `times` are the "HH:MM" dose times as stored. */
  datatype Medication = Medication(
    id: string,
    name: string,
    dosage: string,
    times: seq<string>,
    startDate: int,
    duration: string,
    color: string,
    reminderEnabled: bool,
    currentSupply: int,
    totalSupply: int,
    refillAt: int,
    refillReminder: bool,
    lastRefillDate: Option<int>)

  /** One entry of the dose history. `timestamp` and `scheduledTime` are the
      instants their ISO strings denote; equal strings are equal instants. */
  datatype DoseRecord = DoseRecord(
    id: string,
    medicationId: string,
    timestamp: int,
    taken: bool,
    scheduledTime: Option<int>)

  /** The two persisted collections. */
  datatype Store = Store(medications: seq<Medication>, history: seq<DoseRecord>)

  /** `medications.findIndex(med => med.id === id)`. */
  function FindIndex(meds: seq<Medication>, id: string): (r: Option<nat>)
    ensures r.Some? ==> r.value < |meds| && meds[r.value].id == id
    ensures r.Some? ==> forall j :: 0 <= j < r.value ==> meds[j].id != id
    ensures r.None? <==> forall j :: 0 <= j < |meds| ==> meds[j].id != id
    decreases |meds|
  {
    if meds == [] then None
    else if meds[0].id == id then Some(0)
    else match FindIndex(meds[1..], id)
      case None => None
      case Some(i) => Some(i + 1)
  }

  /** `addMedication`: the new schedule goes at the end of the list. */
  function AddMedication(meds: seq<Medication>, med: Medication): (r: seq<Medication>)
    ensures |r| == |meds| + 1 && r[..|meds|] == meds && r[|meds|] == med
  {
    meds + [med]
  }

  /** `updateMedication`: replace the first schedule with the same id; when
      there is none, nothing is written. */
  function UpdateMedication(meds: seq<Medication>, med: Medication): (r: seq<Medication>)
    ensures |r| == |meds|
    ensures FindIndex(meds, med.id).None? ==> r == meds
    ensures FindIndex(meds, med.id).Some? ==>
              var i := FindIndex(meds, med.id).value;
              r[i] == med && forall j :: 0 <= j < |meds| && j != i ==> r[j] == meds[j]
  {
    match FindIndex(meds, med.id)
    case None => meds
    case Some(i) => meds[i := med]
  }

  /** `deleteMedication`: drop every schedule carrying the id. */
  function DeleteMedication(meds: seq<Medication>, id: string): (r: seq<Medication>)
    ensures forall i :: 0 <= i < |r| ==> r[i] in meds && r[i].id != id
    ensures forall i :: 0 <= i < |meds| && meds[i].id != id ==> meds[i] in r
    ensures FindIndex(r, id).None?
  {
    Filter(meds, (m: Medication) => m.id != id)
  }

  /** Adding a schedule makes it the one found under its id, unless an
      older schedule already carries that id, which then keeps shadowing it. */
  lemma {:induction false} AddThenFind(meds: seq<Medication>, med: Medication)
    ensures FindIndex(AddMedication(meds, med), med.id)
            == if FindIndex(meds, med.id).Some? then FindIndex(meds, med.id) else Some(|meds|)
    decreases |meds|
  {
    if meds != [] && meds[0].id != med.id {
      assert AddMedication(meds, med)[1..] == AddMedication(meds[1..], med);
      AddThenFind(meds[1..], med);
    }
  }

  /** After an update of a known id, the id leads to the new schedule. */
  lemma UpdateThenFind(meds: seq<Medication>, med: Medication)
    requires FindIndex(meds, med.id).Some?
    ensures var r := UpdateMedication(meds, med);
            FindIndex(r, med.id) == FindIndex(meds, med.id)
            && r[FindIndex(r, med.id).value] == med
  {
  }

  /** Updating twice with the same schedule is updating once. */
  lemma UpdateIdempotent(meds: seq<Medication>, med: Medication)
    ensures UpdateMedication(UpdateMedication(meds, med), med) == UpdateMedication(meds, med)
  {
    if FindIndex(meds, med.id).Some? {
      UpdateThenFind(meds, med);
    }
  }

  /** Deletion keeps the surviving schedules in their original order. */
  lemma DeleteKeepsOrder(a: seq<Medication>, b: seq<Medication>, id: string)
    ensures DeleteMedication(a + b, id) == DeleteMedication(a, id) + DeleteMedication(b, id)
  {
    FilterAppend(a, b, (m: Medication) => m.id != id);
  }

  /** Deleting an id no schedule carries changes nothing. */
  lemma DeleteAbsent(meds: seq<Medication>, id: string)
    requires FindIndex(meds, id).None?
    ensures DeleteMedication(meds, id) == meds
  {
    FilterIdentity(meds, (m: Medication) => m.id != id);
  }

  /** Deleting what was just added leaves what deleting before adding would. */
  lemma DeleteAfterAdd(meds: seq<Medication>, med: Medication)
    ensures DeleteMedication(AddMedication(meds, med), med.id) == DeleteMedication(meds, med.id)
  {
    DeleteKeepsOrder(meds, [med], med.id);
    assert DeleteMedication([med], med.id) == [];
  }

  /** Supply after a dose is recorded as taken: one less, never below zero. */
  function TakeOne(supply: int): (r: int)
    ensures supply > 0 ==> r == supply - 1
    ensures supply <= 0 ==> r == supply
  {
    if supply > 0 then supply - 1 else supply
  }

  /** `recordDose`: append one record; when the dose is taken, the first
      schedule with the id loses one unit of supply if it has any. */
  function RecordDose(st: Store, medicationId: string, taken: bool, timestamp: int,
                      scheduledTime: Option<int>, id: string): (r: Store)
    ensures r.history == st.history + [DoseRecord(id, medicationId, timestamp, taken, scheduledTime)]
    ensures !taken || FindIndex(st.medications, medicationId).None? ==> r.medications == st.medications
    ensures |r.medications| == |st.medications|
    ensures taken && FindIndex(st.medications, medicationId).Some? ==>
              var i := FindIndex(st.medications, medicationId).value;
              var m := st.medications[i];
              && r.medications[i] == m.(currentSupply := TakeOne(m.currentSupply))
              && forall j :: 0 <= j < |st.medications| && j != i ==> r.medications[j] == st.medications[j]
  {
    var history := st.history + [DoseRecord(id, medicationId, timestamp, taken, scheduledTime)];
    if !taken then Store(st.medications, history)
    else match FindIndex(st.medications, medicationId)
      case None => Store(st.medications, history)
      case Some(i) =>
        var m := st.medications[i];
        if m.currentSupply > 0
        then Store(UpdateMedication(st.medications, m.(currentSupply := m.currentSupply - 1)), history)
        else Store(st.medications, history)
  }

  predicate SuppliesNonNegative(meds: seq<Medication>) {
    forall i :: 0 <= i < |meds| ==> meds[i].currentSupply >= 0
  }

  /** Recording a dose never drives a supply below zero. */
  lemma RecordDoseKeepsSupplyNonNegative(st: Store, medicationId: string, taken: bool,
                                         timestamp: int, scheduledTime: Option<int>, id: string)
    requires SuppliesNonNegative(st.medications)
    ensures SuppliesNonNegative(RecordDose(st, medicationId, taken, timestamp, scheduledTime, id).medications)
  {
  }

  /** `getTodaysDoses`: the records stamped on the same calendar day as `now`. */
  function TodaysDoses(history: seq<DoseRecord>, now: int): (r: seq<DoseRecord>)
    ensures forall i :: 0 <= i < |r| ==> r[i] in history && IsSameDay(r[i].timestamp, now)
    ensures forall i :: 0 <= i < |history| && IsSameDay(history[i].timestamp, now) ==> history[i] in r
  {
    Filter(history, (d: DoseRecord) => IsSameDay(d.timestamp, now))
  }

  /** A record appended with a timestamp of the current day is the last of
      the day's records; one stamped on another day leaves them as they were. */
  lemma TodaysDosesAfterRecord(history: seq<DoseRecord>, d: DoseRecord, now: int)
    ensures TodaysDoses(history + [d], now)
            == TodaysDoses(history, now) + (if IsSameDay(d.timestamp, now) then [d] else [])
  {
    var p := (x: DoseRecord) => IsSameDay(x.timestamp, now);
    FilterAppend(history, [d], p);
    assert Filter([d], p) == (if p(d) then [d] else []) + Filter([d][1..], p);
  }

  /** `doses.filter(d => d.medicationId === id)`: one medication's records. */
  function DosesOf(history: seq<DoseRecord>, medicationId: string): (r: seq<DoseRecord>)
    ensures forall i :: 0 <= i < |r| ==> r[i] in history && r[i].medicationId == medicationId
    ensures forall i :: 0 <= i < |history| && history[i].medicationId == medicationId ==> history[i] in r
  {
    Filter(history, (d: DoseRecord) => d.medicationId == medicationId)
  }

  /** Filtering one more record appends it exactly when it is the
      medication's, so the medication's records keep their order and count. */
  lemma DosesOfAppend(history: seq<DoseRecord>, d: DoseRecord, medicationId: string)
    ensures DosesOf(history + [d], medicationId)
            == DosesOf(history, medicationId) + (if d.medicationId == medicationId then [d] else [])
  {
    var p := (x: DoseRecord) => x.medicationId == medicationId;
    FilterAppend(history, [d], p);
    assert Filter([d], p) == (if p(d) then [d] else []) + Filter([d][1..], p);
  }

  /** One dose time of one schedule: the unit both the sweep and the home
      screen iterate over (`for medication … for time of medication.times`). */
  datatype Slot = Slot(med: Medication, time: string)

  function SlotsOf(med: Medication, times: seq<string>): (r: seq<Slot>)
    ensures |r| == |times|
    ensures forall j :: 0 <= j < |r| ==> r[j] == Slot(med, times[j])
  {
    seq(|times|, j requires 0 <= j < |times| => Slot(med, times[j]))
  }

  function TotalTimes(meds: seq<Medication>): nat
    decreases |meds|
  {
    if meds == [] then 0 else |meds[0].times| + TotalTimes(meds[1..])
  }

  /** Every (schedule, time) pair in loop order: schedules outer, times inner. */
  function Slots(meds: seq<Medication>): (r: seq<Slot>)
    ensures |r| == TotalTimes(meds)
    ensures forall k :: 0 <= k < |r| ==> r[k].med in meds && r[k].time in r[k].med.times
    ensures forall i, j :: 0 <= i < |meds| && 0 <= j < |meds[i].times| ==> Slot(meds[i], meds[i].times[j]) in r
    decreases |meds|
  {
    if meds == [] then []
    else
      var head := SlotsOf(meds[0], meds[0].times);
      var rest := Slots(meds[1..]);
      assert forall i :: 1 <= i < |meds| ==> meds[i] == meds[1..][i - 1];
      assert forall j :: 0 <= j < |meds[0].times| ==> Slot(meds[0], meds[0].times[j]) == head[j];
      head + rest
  }

  /** The pairs of two lists of schedules are those of the first list,
      then those of the second: the outer loop visits schedules in order. */
  lemma {:induction false} SlotsAppend(a: seq<Medication>, b: seq<Medication>)
    ensures Slots(a + b) == Slots(a) + Slots(b)
    decreases |a|
  {
    if a == [] {
      assert a + b == b;
    } else {
      assert (a + b)[0] == a[0];
      assert (a + b)[1..] == a[1..] + b;
      SlotsAppend(a[1..], b);
    }
  }

  /** The sweep's view of one schedule: its times in order. */
  lemma SlotsOfOne(med: Medication)
    ensures Slots([med]) == SlotsOf(med, med.times)
  {
    assert [med][1..] == [];
    assert SlotsOf(med, med.times) + [] == SlotsOf(med, med.times);
  }
}

=== FILE: sweep.dfy ===
/** The missed-dose sweep `checkMissedDoses`: for every dose time of every
    schedule, today's occurrence that is past its ten-minute grace window
    and that no record in the history snapshot answers gets one synthetic
    record with `taken` false. The snapshot is read once before the loop
    and is not refreshed by the loop's own appends. */
module Sweep {
  import opened Wrappers
  import opened Time
  import opened Storage
  import opened Text

  /** The sweep's fixed grace window, `10 * 60000` milliseconds. */
  const SweepGraceMs: int := 10 * MsPerMinute

  /** `history.some(dose => dose.medicationId === id && dose.scheduledTime === scheduled)`. */
  ghost predicate HasRecordFor(history: seq<DoseRecord>, medicationId: string, scheduled: int) {
    exists i :: 0 <= i < |history| && history[i].medicationId == medicationId
                                   && history[i].scheduledTime == Some(scheduled)
  }

  /** Some record belongs to the medication. */
  ghost predicate HasRecordOf(history: seq<DoseRecord>, medicationId: string) {
    exists i :: 0 <= i < |history| && history[i].medicationId == medicationId
  }

  function AnyRecordFor(history: seq<DoseRecord>, medicationId: string, scheduled: int): (b: bool)
    ensures b <==> HasRecordFor(history, medicationId, scheduled)
    decreases |history|
  {
    if history == [] then false
    else (history[0].medicationId == medicationId && history[0].scheduledTime == Some(scheduled))
         || AnyRecordFor(history[1..], medicationId, scheduled)
  }

  function AnyRecordOf(history: seq<DoseRecord>, medicationId: string): (b: bool)
    ensures b <==> HasRecordOf(history, medicationId)
    decreases |history|
  {
    if history == [] then false
    else history[0].medicationId == medicationId || AnyRecordOf(history[1..], medicationId)
  }

  /** The three guards an occurrence passes before a record is appended:
      it is not in the future, the snapshot holds no record for it, and the
      grace window has strictly elapsed. */
  ghost predicate Overdue(snapshot: seq<DoseRecord>, medicationId: string, scheduled: int, now: int) {
    && scheduled <= now
    && !HasRecordFor(snapshot, medicationId, scheduled)
    && now > scheduled + SweepGraceMs
  }

  /** An unparsable dose time gives an invalid date; its `toISOString()`
      throws, but only once `history.some` reaches a record of the same
      medication (the `&&` short-circuits before it otherwise). The throw
      is caught and logged and ends the sweep. */
  ghost predicate Aborts(slot: Slot, snapshot: seq<DoseRecord>) {
    ParseClock(slot.time).None? && HasRecordOf(snapshot, slot.med.id)
  }

  /** The slot's occurrence today gets a record. */
  ghost predicate Marks(slot: Slot, snapshot: seq<DoseRecord>, now: int) {
    ParseClock(slot.time).Some? && Overdue(snapshot, slot.med.id, At(now, ParseClock(slot.time).value), now)
  }

  /** `d` is the record the sweep writes for the slot's occurrence. */
  ghost predicate MissedRecordFor(d: DoseRecord, slot: Slot, snapshot: seq<DoseRecord>, now: int) {
    && Marks(slot, snapshot, now)
    && var scheduled := At(now, ParseClock(slot.time).value);
       && d.medicationId == slot.med.id
       && !d.taken
       && d.timestamp == scheduled + SweepGraceMs
       && d.scheduledTime == Some(scheduled)
  }

  /** `d` is the missed record of one of the slots. */
  ghost predicate MissedRecordAmong(d: DoseRecord, slots: seq<Slot>, snapshot: seq<DoseRecord>, now: int) {
    exists j :: 0 <= j < |slots| && MissedRecordFor(d, slots[j], snapshot, now)
  }

  /** How many slots the sweep visits before the first one that aborts it. */
  function Reach(slots: seq<Slot>, snapshot: seq<DoseRecord>): (n: nat)
    ensures n <= |slots|
    ensures forall j :: 0 <= j < n ==> !Aborts(slots[j], snapshot)
    ensures n < |slots| ==> Aborts(slots[n], snapshot)
    decreases |slots|
  {
    if slots == [] then 0
    else if ParseClock(slots[0].time).None? && AnyRecordOf(snapshot, slots[0].med.id) then 0
    else 1 + Reach(slots[1..], snapshot)
  }

  /** The loop body of `checkMissedDoses` for one slot that does not abort. */
  function SweepSlot(slot: Slot, snapshot: seq<DoseRecord>, now: int, newId: nat -> string,
                     st: Store): (r: Store)
    ensures r.medications == st.medications
    ensures !Marks(slot, snapshot, now) ==> r.history == st.history
    ensures Marks(slot, snapshot, now) ==>
              && |r.history| == |st.history| + 1
              && r.history[..|st.history|] == st.history
              && MissedRecordFor(r.history[|st.history|], slot, snapshot, now)
              && r.history[|st.history|].id == newId(|st.history|)
  {
    match ParseClock(slot.time)
    case None => st
    case Some(c) =>
      var scheduled := At(now, c);
      if scheduled > now then st
      else if AnyRecordFor(snapshot, slot.med.id, scheduled) then st
      else
        var graceEnd := scheduled + SweepGraceMs;
        if now > graceEnd
        then RecordDose(st, slot.med.id, false, graceEnd, Some(scheduled), newId(|st.history|))
        else st
  }

  /** The slots the sweep marks, in loop order: those visited before the
      first one that aborts (as in `Reach`) whose occurrence is overdue. */
  ghost function MarkedSlots(slots: seq<Slot>, snapshot: seq<DoseRecord>, now: int): (m: seq<Slot>)
    ensures |m| <= |slots|
    decreases |slots|
  {
    if slots == [] || Aborts(slots[0], snapshot) then []
    else (if Marks(slots[0], snapshot, now) then [slots[0]] else []) + MarkedSlots(slots[1..], snapshot, now)
  }

  /** The `k`-th record from `base` on is the missed record of `marked[k]`,
      with the id drawn at its own history length. */
  ghost predicate AppendedFor(history: seq<DoseRecord>, base: nat, marked: seq<Slot>,
                              snapshot: seq<DoseRecord>, now: int, newId: nat -> string) {
    && |history| == base + |marked|
    && forall k :: 0 <= k < |marked| ==>
         && MissedRecordFor(history[base + k], marked[k], snapshot, now)
         && history[base + k].id == newId(base + k)
  }

  /** The loop over the remaining slots, stopping at one that aborts. */
  function SweepSlots(slots: seq<Slot>, snapshot: seq<DoseRecord>, now: int, newId: nat -> string,
                      st: Store): (r: Store)
    ensures r.medications == st.medications
    ensures |st.history| <= |r.history| <= |st.history| + |slots|
    ensures r.history[..|st.history|] == st.history
    ensures forall k :: |st.history| <= k < |r.history| ==>
              MissedRecordAmong(r.history[k], slots, snapshot, now)
    ensures AppendedFor(r.history, |st.history|, MarkedSlots(slots, snapshot, now), snapshot, now, newId)
    decreases |slots|
  {
    if slots == [] then st
    else if ParseClock(slots[0].time).None? && AnyRecordOf(snapshot, slots[0].med.id) then st
    else
      var st' := SweepSlot(slots[0], snapshot, now, newId, st);
      var r := SweepSlots(slots[1..], snapshot, now, newId, st');
      assert r.history[..|st.history|] == st.history by {
        assert r.history[..|st'.history|] == st'.history;
        assert st'.history[..|st.history|] == st.history;
      }
      AmongStep(slots, snapshot, now, newId, st, st', r);
      AppendedStep(slots, snapshot, now, newId, st, st', r);
      r
  }

  /** One loop step keeps every new record a missed record of some slot. */
  lemma AmongStep(slots: seq<Slot>, snapshot: seq<DoseRecord>, now: int, newId: nat -> string,
                  st: Store, st': Store, r: Store)
    requires slots != []
    requires st' == SweepSlot(slots[0], snapshot, now, newId, st)
    requires |st'.history| <= |r.history| && r.history[..|st'.history|] == st'.history
    requires forall k :: |st'.history| <= k < |r.history| ==>
               MissedRecordAmong(r.history[k], slots[1..], snapshot, now)
    ensures forall k :: |st.history| <= k < |r.history| ==>
              MissedRecordAmong(r.history[k], slots, snapshot, now)
  {
    forall k | |st.history| <= k < |r.history|
      ensures MissedRecordAmong(r.history[k], slots, snapshot, now)
    {
      if k < |st'.history| {
        assert r.history[k] == st'.history[k];
        assert MissedRecordFor(r.history[k], slots[0], snapshot, now);
      } else {
        var j :| 0 <= j < |slots[1..]| && MissedRecordFor(r.history[k], slots[1..][j], snapshot, now);
        assert slots[1..][j] == slots[j + 1];
      }
    }
  }

  /** One loop step keeps the record-per-marked-slot account. */
  lemma AppendedStep(slots: seq<Slot>, snapshot: seq<DoseRecord>, now: int, newId: nat -> string,
                     st: Store, st': Store, r: Store)
    requires slots != [] && !Aborts(slots[0], snapshot)
    requires st' == SweepSlot(slots[0], snapshot, now, newId, st)
    requires |st'.history| <= |r.history| && r.history[..|st'.history|] == st'.history
    requires AppendedFor(r.history, |st'.history|, MarkedSlots(slots[1..], snapshot, now), snapshot, now, newId)
    ensures AppendedFor(r.history, |st.history|, MarkedSlots(slots, snapshot, now), snapshot, now, newId)
  {
    var rest := MarkedSlots(slots[1..], snapshot, now);
    var base := |st.history|;
    if Marks(slots[0], snapshot, now) {
      assert MarkedSlots(slots, snapshot, now) == [slots[0]] + rest;
      assert r.history[base] == st'.history[base];
      AppendedCons(r.history, base, slots[0], rest, snapshot, now, newId);
    } else {
      assert MarkedSlots(slots, snapshot, now) == rest;
    }
  }

  /** One more missed record in front of an account extends it by its slot. */
  lemma AppendedCons(history: seq<DoseRecord>, base: nat, slot: Slot, rest: seq<Slot>,
                     snapshot: seq<DoseRecord>, now: int, newId: nat -> string)
    requires base < |history|
    requires MissedRecordFor(history[base], slot, snapshot, now) && history[base].id == newId(base)
    requires AppendedFor(history, base + 1, rest, snapshot, now, newId)
    ensures AppendedFor(history, base, [slot] + rest, snapshot, now, newId)
  {
    var m := [slot] + rest;
    forall k | 0 <= k < |m|
      ensures MissedRecordFor(history[base + k], m[k], snapshot, now)
      ensures history[base + k].id == newId(base + k)
    {
      if k > 0 {
        assert m[k] == rest[k - 1];
        assert base + k == (base + 1) + (k - 1);
      }
    }
  }

  /** `checkMissedDoses` with the clock reading `now`; `newId` supplies the
      random id of the record appended at each history length. */
  function CheckMissedDoses(st: Store, now: int, newId: nat -> string): (r: Store)
    ensures r.medications == st.medications
    ensures |st.history| <= |r.history| <= |st.history| + TotalTimes(st.medications)
    ensures r.history[..|st.history|] == st.history
    ensures forall k :: |st.history| <= k < |r.history| ==>
              MissedRecordAmong(r.history[k], Slots(st.medications), st.history, now)
    ensures AppendedFor(r.history, |st.history|, MarkedSlots(Slots(st.medications), st.history, now),
                        st.history, now, newId)
  {
    SweepSlots(Slots(st.medications), st.history, now, newId, st)
  }

  /** Every slot visited before the sweep stops whose occurrence is
      overdue ends up with its missed record in the history. */
  lemma {:induction false} SweepSlotsComplete(slots: seq<Slot>, snapshot: seq<DoseRecord>, now: int,
                                              newId: nat -> string, st: Store, j: nat)
    requires j < Reach(slots, snapshot)
    requires Marks(slots[j], snapshot, now)
    ensures exists k :: |st.history| <= k < |SweepSlots(slots, snapshot, now, newId, st).history|
                        && MissedRecordFor(SweepSlots(slots, snapshot, now, newId, st).history[k],
                                           slots[j], snapshot, now)
    decreases |slots|
  {
    var r := SweepSlots(slots, snapshot, now, newId, st);
    MarkedSlotsCover(slots, snapshot, now, j);
    var i :| 0 <= i < |MarkedSlots(slots, snapshot, now)| && MarkedSlots(slots, snapshot, now)[i] == slots[j];
    assert MissedRecordFor(r.history[|st.history| + i], slots[j], snapshot, now);
  }

  /** Every slot visited before the sweep stops whose occurrence is
      overdue is among the marked slots. */
  lemma {:induction false} MarkedSlotsCover(slots: seq<Slot>, snapshot: seq<DoseRecord>, now: int, j: nat)
    requires j < Reach(slots, snapshot)
    requires Marks(slots[j], snapshot, now)
    ensures slots[j] in MarkedSlots(slots, snapshot, now)
    decreases |slots|
  {
    var rest := MarkedSlots(slots[1..], snapshot, now);
    var head := if Marks(slots[0], snapshot, now) then [slots[0]] else [];
    assert MarkedSlots(slots, snapshot, now) == head + rest;
    if j > 0 {
      ReachTail(slots, snapshot, j);
      MarkedSlotsCover(slots[1..], snapshot, now, j - 1);
    }
  }

  lemma ReachTail(slots: seq<Slot>, snapshot: seq<DoseRecord>, j: nat)
    requires 0 < j < Reach(slots, snapshot)
    ensures j - 1 < Reach(slots[1..], snapshot) && slots[1..][j - 1] == slots[j]
  {
  }

  /** A sweep in which no visited slot is overdue changes nothing. */
  lemma {:induction false} SweepSlotsQuiet(slots: seq<Slot>, snapshot: seq<DoseRecord>, now: int,
                                           newId: nat -> string, st: Store)
    requires forall j :: 0 <= j < Reach(slots, snapshot) ==> !Marks(slots[j], snapshot, now)
    ensures SweepSlots(slots, snapshot, now, newId, st) == st
    decreases |slots|
  {
    if slots != [] && !Aborts(slots[0], snapshot) {
      assert !Marks(slots[0], snapshot, now);
      assert SweepSlot(slots[0], snapshot, now, newId, st) == st;
      assert forall j :: 0 <= j < Reach(slots[1..], snapshot) ==> slots[1..][j] == slots[j + 1];
      SweepSlotsQuiet(slots[1..], snapshot, now, newId, st);
    }
  }

  /** A longer history can only make the sweep stop earlier. */
  lemma {:induction false} ReachShrinks(slots: seq<Slot>, snapshot: seq<DoseRecord>, longer: seq<DoseRecord>)
    requires snapshot <= longer
    ensures Reach(slots, longer) <= Reach(slots, snapshot)
    decreases |slots|
  {
    if slots != [] {
      if Aborts(slots[0], snapshot) {
        var i :| 0 <= i < |snapshot| && snapshot[i].medicationId == slots[0].med.id;
        assert longer[i] == snapshot[i];
        assert Aborts(slots[0], longer);
      } else {
        ReachShrinks(slots[1..], snapshot, longer);
      }
    }
  }

  /** Sweep idempotence: a second sweep with the same clock over the
      history the first one produced appends nothing, whatever ids it draws. */
  lemma SweepIdempotent(st: Store, now: int, newId: nat -> string, newId': nat -> string)
    ensures var once := CheckMissedDoses(st, now, newId);
            CheckMissedDoses(once, now, newId') == once
  {
    var once := CheckMissedDoses(st, now, newId);
    var slots := Slots(st.medications);
    var h0 := st.history;
    var h1 := once.history;
    assert h0 <= h1;
    ReachShrinks(slots, h0, h1);
    forall j | 0 <= j < Reach(slots, h1)
      ensures !Marks(slots[j], h1, now)
    {
      if ParseClock(slots[j].time).Some? {
        var scheduled := At(now, ParseClock(slots[j].time).value);
        var id := slots[j].med.id;
        if Overdue(h0, id, scheduled, now) {
          SweepSlotsComplete(slots, h0, now, newId, st, j);
          var k :| |h0| <= k < |h1| && MissedRecordFor(h1[k], slots[j], h0, now);
          assert h1[k].medicationId == id && h1[k].scheduledTime == Some(scheduled);
          assert HasRecordFor(h1, id, scheduled);
        } else if HasRecordFor(h0, id, scheduled) {
          var i :| 0 <= i < |h0| && h0[i].medicationId == id && h0[i].scheduledTime == Some(scheduled);
          assert h1[i] == h0[i];
        }
      }
    }
    SweepSlotsQuiet(slots, h1, now, newId', once);
  }

  /** Every overdue occurrence the sweep reaches gets its missed record. */
  lemma CheckMissedDosesComplete(st: Store, now: int, newId: nat -> string, j: nat)
    requires j < Reach(Slots(st.medications), st.history)
    requires Marks(Slots(st.medications)[j], st.history, now)
    ensures var r := CheckMissedDoses(st, now, newId);
            exists k :: |st.history| <= k < |r.history|
                        && MissedRecordFor(r.history[k], Slots(st.medications)[j], st.history, now)
  {
    var slots := Slots(st.medications);
    SweepSlotsComplete(slots, st.history, now, newId, st, j);
    var r := SweepSlots(slots, st.history, now, newId, st);
    var k :| |st.history| <= k < |r.history| && MissedRecordFor(r.history[k], slots[j], st.history, now);
    assert r == CheckMissedDoses(st, now, newId);
  }

  /** An overdue occurrence of a readable time gets exactly its missed record. */
  lemma SweepSlotAppends(slot: Slot, snapshot: seq<DoseRecord>, now: int, newId: nat -> string,
                         st: Store, c: Clock)
    requires ParseClock(slot.time) == Some(c)
    requires Overdue(snapshot, slot.med.id, At(now, c), now)
    ensures SweepSlot(slot, snapshot, now, newId, st).history
            == st.history + [DoseRecord(newId(|st.history|), slot.med.id, At(now, c) + SweepGraceMs,
                                        false, Some(At(now, c)))]
  {
  }

  /** One step of the loop over a slot whose time is readable. */
  lemma SweepSlotsStep(slots: seq<Slot>, snapshot: seq<DoseRecord>, now: int, newId: nat -> string,
                       st: Store)
    requires slots != [] && ParseClock(slots[0].time).Some?
    ensures SweepSlots(slots, snapshot, now, newId, st)
            == SweepSlots(slots[1..], snapshot, now, newId, SweepSlot(slots[0], snapshot, now, newId, st))
  {
  }

  /** A store whose only dose time is overdue gets exactly that time's missed record. */
  lemma SweepOneOverdue(st: Store, slot: Slot, now: int, newId: nat -> string, c: Clock)
    requires Slots(st.medications) == [slot]
    requires ParseClock(slot.time) == Some(c)
    requires Overdue(st.history, slot.med.id, At(now, c), now)
    ensures CheckMissedDoses(st, now, newId).history
            == st.history + [DoseRecord(newId(|st.history|), slot.med.id, At(now, c) + SweepGraceMs,
                                        false, Some(At(now, c)))]
  {
    SweepSlotAppends(slot, st.history, now, newId, st, c);
    SweepSlotsStep([slot], st.history, now, newId, st);
    assert [slot][1..] == [];
  }

  /** The history ends, after its first `n` records, in exactly two
      records for the medication's occurrence at `scheduled`. */
  ghost predicate TwoRecordsFor(history: seq<DoseRecord>, n: nat, medicationId: string, scheduled: int) {
    && |history| == n + 2
    && history[n].medicationId == history[n + 1].medicationId == medicationId
    && history[n].scheduledTime == history[n + 1].scheduledTime == Some(scheduled)
  }

  /** A time listed twice in a schedule, overdue against the snapshot, is
      marked twice: the loop's own first append is not in the snapshot it
      consults. */
  lemma StaleSnapshotMarksTwice(st: Store, slot: Slot, now: int, newId: nat -> string, c: Clock)
    requires Slots(st.medications) == [slot, slot]
    requires ParseClock(slot.time) == Some(c)
    requires Overdue(st.history, slot.med.id, At(now, c), now)
    ensures TwoRecordsFor(CheckMissedDoses(st, now, newId).history, |st.history|, slot.med.id, At(now, c))
  {
    var snapshot := st.history;
    SweepSlotAppends(slot, snapshot, now, newId, st, c);
    var st1 := SweepSlot(slot, snapshot, now, newId, st);
    SweepSlotAppends(slot, snapshot, now, newId, st1, c);
    SweepSlotsStep([slot, slot], snapshot, now, newId, st);
    assert [slot, slot][1..] == [slot];
    SweepSlotsStep([slot], snapshot, now, newId, st1);
    assert [slot][1..] == [];
  }
}

=== FILE: sweep_examples.dfy ===
/** Worked examples of the missed-dose sweep on a one-schedule store. */
module SweepExamples {
  import opened Wrappers
  import opened Text
  import opened Time
  import opened Storage
  import opened Sweep

  lemma EightOClock(now: int)
    requires 0 <= now < MsPerDay
    ensures ParseClock("08:00") == Some(Clock(8, 0))
    ensures At(now, Clock(8, 0)) == 8 * MsPerHour
  {
    FirstDay(now);
    EightOClockParses();
  }

  lemma EightOClockParses()
    ensures ParseClock("08:00") == Some(Clock(8, 0))
  {
    assert "08:00" == "08" + ":" + "00";
    assert DecimalValue("08") == 8 && DecimalValue("00") == 0 by {
      assert "08"[..1] == "0" && "00"[..1] == "0" && "0"[..0] == "";
    }
    ParseClockOf("08", "00");
  }

  /** A schedule whose one dose time is "08:00", with no records, swept
      after 08:10 on the first day of the epoch. The 08:00 dose is past its grace window, so one
      record is appended with `taken` false, stamped 08:10 and answering 08:00. */
  lemma MorningScenario(med: Medication, newId: nat -> string, now: int)
    requires med.times == ["08:00"]
    requires 8 * MsPerHour + 10 * MsPerMinute < now < MsPerDay
    ensures CheckMissedDoses(Store([med], []), now, newId).history
            == [DoseRecord(newId(0), med.id, 8 * MsPerHour + 10 * MsPerMinute, false, Some(8 * MsPerHour))]
  {
    var slot := Slot(med, "08:00");
    var st := Store([med], []);
    assert Slots(st.medications) == [slot] by {
      SlotsOfOne(med);
    }
    EightOClock(now);
    SweepOneOverdue(st, slot, now, newId, Clock(8, 0));
  }

  /** The snapshot is not refreshed inside the loop: a schedule that lists
      "08:00" twice, swept after 08:10 with no records, gets two missed
      records for the one 08:00 occurrence. */
  lemma RepeatedTimeMarkedTwice(med: Medication, newId: nat -> string, now: int)
    requires med.times == ["08:00", "08:00"]
    requires 8 * MsPerHour + 10 * MsPerMinute < now < MsPerDay
    ensures TwoRecordsFor(CheckMissedDoses(Store([med], []), now, newId).history, 0, med.id, 8 * MsPerHour)
  {
    var slot := Slot(med, "08:00");
    var st := Store([med], []);
    assert Slots(st.medications) == [slot, slot] by {
      SlotsOfOne(med);
    }
    EightOClock(now);
    StaleSnapshotMarksTwice(st, slot, now, newId, Clock(8, 0));
  }
}

=== FILE: text.dfy ===
/** The slice of JavaScript string and number behaviour the medication
    code depends on: `Number(s)`, `parseInt(s)`, `n.toString()`,
    `padStart`, `indexOf` and the first fields of `split`. */
module Text {
  import opened Wrappers

  predicate IsDigit(ch: char) {
    '0' <= ch <= '9'
  }

  predicate AllDigits(s: string) {
    forall i :: 0 <= i < |s| ==> IsDigit(s[i])
  }

  function DigitChar(d: nat): (ch: char)
    requires d < 10
    ensures IsDigit(ch)
    ensures ch as int - '0' as int == d
  {
    ('0' as int + d) as char
  }

  function DigitValue(ch: char): (d: nat)
    requires IsDigit(ch)
    ensures d < 10
  {
    ch as int - '0' as int
  }

  /** The value of a decimal digit string, most significant digit first. */
  function DecimalValue(s: string): nat
    requires AllDigits(s)
    decreases |s|
  {
    if s == [] then 0 else DecimalValue(s[..|s| - 1]) * 10 + DigitValue(s[|s| - 1])
  }

  /** `n.toString()` for a non-negative integer: shortest decimal form. */
  function NatToString(n: nat): (s: string)
    ensures |s| >= 1 && AllDigits(s)
    ensures DecimalValue(s) == n
    ensures n > 0 ==> s[0] != '0'
    ensures n == 0 ==> s == "0"
    decreases n
  {
    if n < 10 then [DigitChar(n)]
    else
      var prefix := NatToString(n / 10);
      var s := prefix + [DigitChar(n % 10)];
      assert s[..|s| - 1] == prefix;
      s
  }

  /** Numbers below 100 print in at most two digits. */
  lemma NatToStringShort(n: nat)
    ensures n < 100 ==> |NatToString(n)| <= 2
  {
    if 10 <= n < 100 {
      assert |NatToString(n / 10)| == 1;
    }
  }

  /** The decimal form of a number below 100, digit by digit. */
  lemma NatToStringSmall(n: nat)
    requires n < 100
    ensures n < 10 ==> NatToString(n) == [DigitChar(n)]
    ensures n >= 10 ==> NatToString(n) == [DigitChar(n / 10), DigitChar(n % 10)]
  {
  }

  /** `s.padStart(width, fill)` with a one-character fill. */
  function PadStart(s: string, width: nat, fill: char): (r: string)
    ensures |r| == if |s| >= width then |s| else width
    ensures r[|r| - |s|..] == s
    ensures forall i :: 0 <= i < |r| - |s| ==> r[i] == fill
  {
    if |s| >= width then s else seq(width - |s|, _ => fill) + s
  }

  lemma {:induction false} ZerosValue(z: string)
    requires forall i :: 0 <= i < |z| ==> z[i] == '0'
    ensures AllDigits(z) && DecimalValue(z) == 0
    decreases |z|
  {
    if z != [] {
      ZerosValue(z[..|z| - 1]);
    }
  }

  /** Leading zeros do not change a decimal value. */
  lemma {:induction false} ZeroPrefixValue(z: string, s: string)
    requires forall i :: 0 <= i < |z| ==> z[i] == '0'
    requires AllDigits(s)
    ensures AllDigits(z + s) && DecimalValue(z + s) == DecimalValue(s)
    decreases |s|
  {
    ZerosValue(z);
    if s == [] {
      assert z + s == z;
    } else {
      var s' := s[..|s| - 1];
      ZeroPrefixValue(z, s');
      assert (z + s)[..|z + s| - 1] == z + s';
    }
  }

  /** Padding a digit string with '0' keeps it a digit string of the same value. */
  lemma ZeroPadValue(s: string, width: nat)
    requires AllDigits(s)
    ensures AllDigits(PadStart(s, width, '0'))
    ensures DecimalValue(PadStart(s, width, '0')) == DecimalValue(s)
  {
    var r := PadStart(s, width, '0');
    var z := r[..|r| - |s|];
    assert r == z + s;
    ZeroPrefixValue(z, s);
  }

  /** `s.indexOf(ch)`, with `|s|` standing for "not found". */
  function IndexOf(s: string, ch: char): (i: nat)
    ensures i <= |s|
    ensures i < |s| ==> s[i] == ch
    ensures forall j :: 0 <= j < i ==> s[j] != ch
    decreases |s|
  {
    if s == [] then 0
    else if s[0] == ch then 0
    else 1 + IndexOf(s[1..], ch)
  }

  /** The first occurrence of `ch` in `a + [ch] + b`, when `a` has none, ends `a`. */
  lemma IndexOfAfter(a: string, ch: char, b: string)
    requires ch !in a
    ensures IndexOf(a + [ch] + b, ch) == |a|
  {
    var s := a + [ch] + b;
    var i := IndexOf(s, ch);
    assert s[|a|] == ch;
    assert forall j :: 0 <= j < |a| ==> s[j] == a[j];
  }

  /** The first two fields of `s.split(sep)`; the second is `None` when
      `sep` does not occur, where the source reads `undefined`. */
  function SplitHead(s: string, sep: char): (r: (string, Option<string>))
    ensures sep !in r.0
    ensures r.1.None? <==> sep !in s
    ensures r.1.None? ==> r.0 == s
    ensures r.1.Some? ==> sep !in r.1.value && r.0 + [sep] + r.1.value <= s
    ensures r.1.Some? ==>
              var n := |r.0| + 1 + |r.1.value|;
              n == |s| || s[n] == sep
  {
    var i := IndexOf(s, sep);
    if i == |s| then (s, None)
    else
      var rest := s[i + 1..];
      var j := IndexOf(rest, sep);
      assert s[..i] + [sep] + rest[..j] == s[..i + 1 + j];
      (s[..i], Some(rest[..j]))
  }

  /** Splitting "a<sep>b" where neither part holds the separator. */
  lemma SplitHeadOf(a: string, sep: char, b: string)
    requires sep !in a && sep !in b
    ensures SplitHead(a + [sep] + b, sep) == (a, Some(b))
  {
    var s := a + [sep] + b;
    IndexOfAfter(a, sep, b);
    assert s[..|a|] == a;
    var rest := s[|a| + 1..];
    assert rest == b;
    assert IndexOf(b, sep) == |b|;
    assert rest[..|b|] == b;
  }

  lemma DigitsExclude(s: string, ch: char)
    requires AllDigits(s) && !IsDigit(ch)
    ensures ch !in s
  {
    assert forall k :: 0 <= k < |s| ==> s[k] != ch;
  }

  /** `s.split(" ")[0]`: everything before the first space. */
  function FirstWord(s: string): (w: string)
    ensures w <= s && ' ' !in w
    ensures |w| < |s| ==> s[|w|] == ' '
  {
    s[..IndexOf(s, ' ')]
  }

  /** The first word of "w rest" is `w` when `w` holds no space. */
  lemma FirstWordOf(w: string, rest: string)
    requires ' ' !in w
    ensures FirstWord(w + " " + rest) == w
  {
    IndexOfAfter(w, ' ', rest);
    assert w + " " + rest == w + [' '] + rest;
    assert (w + [' '] + rest)[..|w|] == w;
  }

  /** A JavaScript number as produced by `Number(...)` on a time field. */
  datatype JsNumber = Num(value: nat) | NaN

  /** `Number(s)` for the strings a schedule holds: the empty string is 0,
      a run of decimal digits is its value, anything else is NaN. */
  function ToNumber(s: string): (r: JsNumber)
    ensures r.Num? <==> AllDigits(s)
  {
    if AllDigits(s) then Num(DecimalValue(s)) else NaN
  }

  /** `Number(n.toString())` gives `n` back. */
  lemma NumberOfNatToString(n: nat)
    ensures ToNumber(NatToString(n)) == Num(n)
  {
  }

  /** The longest prefix of decimal digits. */
  function LeadingDigits(s: string): (d: string)
    ensures d <= s && AllDigits(d)
    ensures |d| < |s| ==> !IsDigit(s[|d|])
    decreases |s|
  {
    if s == [] || !IsDigit(s[0]) then []
    else
      var rest := LeadingDigits(s[1..]);
      assert [s[0]] + rest <= s;
      [s[0]] + rest
  }

  /** `parseInt(s)` (radix 10) on a string without leading white space:
      an optional sign and the digits that follow it; `None` is NaN. */
  function ParseInt(s: string): (r: Option<int>)
    ensures r.Some? <==> (|s| > 0 && IsDigit(s[0]))
                         || (|s| > 1 && (s[0] == '-' || s[0] == '+') && IsDigit(s[1]))
    ensures r.Some? && r.value < 0 ==> s[0] == '-'
    ensures r.Some? && s[0] == '-' ==> r.value <= 0
  {
    var negative := |s| > 0 && s[0] == '-';
    var body := if |s| > 0 && (s[0] == '-' || s[0] == '+') then s[1..] else s;
    var digits := LeadingDigits(body);
    if digits == [] then None
    else
      var magnitude: int := DecimalValue(digits);
      Some(if negative then -magnitude else magnitude)
  }

  lemma {:induction false} LeadingDigitsOfDigits(d: string, rest: string)
    requires AllDigits(d)
    requires rest == [] || !IsDigit(rest[0])
    ensures LeadingDigits(d + rest) == d
    decreases |d|
  {
    if d == [] {
      assert d + rest == rest;
    } else {
      assert (d + rest)[1..] == d[1..] + rest;
      LeadingDigitsOfDigits(d[1..], rest);
      assert [d[0]] + d[1..] == d;
    }
  }

  /** `parseInt` reads back a digit string, signed or not, that is
      followed by a non-digit. */
  lemma ParseIntOfDigits(digits: string, rest: string)
    requires digits != [] && AllDigits(digits)
    requires rest == [] || !IsDigit(rest[0])
    ensures ParseInt(digits + rest) == Some(DecimalValue(digits) as int)
    ensures ParseInt("-" + digits + rest) == Some(-(DecimalValue(digits) as int))
  {
    LeadingDigitsOfDigits(digits, rest);
    ParseIntUnsigned(digits, rest);
    ParseIntNegative(digits, rest);
  }

  lemma ParseIntUnsigned(digits: string, rest: string)
    requires digits != [] && AllDigits(digits)
    requires LeadingDigits(digits + rest) == digits
    ensures ParseInt(digits + rest) == Some(DecimalValue(digits) as int)
  {
    var s := digits + rest;
    assert s[0] == digits[0];
    assert IsDigit(s[0]);
  }

  lemma ParseIntNegative(digits: string, rest: string)
    requires digits != [] && AllDigits(digits)
    requires LeadingDigits(digits + rest) == digits
    ensures ParseInt("-" + digits + rest) == Some(-(DecimalValue(digits) as int))
  {
    var s := "-" + digits + rest;
    assert s[0] == '-';
    assert s[1..] == digits + rest;
  }
}

=== FILE: time.dfy ===
/** Instants, calendar days and wall-clock times.

    An instant is an integer count of milliseconds. The calendar day of an
    instant is its floor division by the length of a day, which stands for
    the device's local calendar with the time-zone offset folded into the
    epoch. A dose time is the "HH:MM" string the schedule stores, read the
    way the source reads it: `time.split(':').map(Number)`. */
module Time {
  import opened Wrappers
  import opened Text

  const MsPerMinute: int := 60_000
  const MsPerHour: int := 3_600_000
  const MsPerDay: int := 86_400_000

  /** The calendar day an instant falls on. */
  function DayOf(t: int): int {
    t / MsPerDay
  }

  /** `isSameDay`: same year, month and day of month, i.e. the same calendar day. */
  predicate IsSameDay(a: int, b: int) {
    DayOf(a) == DayOf(b)
  }

  /** Local midnight of the day of `t`. */
  function StartOfDay(t: int): (r: int)
    ensures r % MsPerDay == 0
    ensures r <= t < r + MsPerDay
    ensures IsSameDay(r, t)
  {
    DayOf(t) * MsPerDay
  }

  /** `isSameDay` holds exactly when the second instant lies in the day
      that starts at the first one's midnight. */
  lemma SameDayWindow(a: int, b: int)
    ensures IsSameDay(a, b) <==> StartOfDay(a) <= b < StartOfDay(a) + MsPerDay
  {
    var m := StartOfDay(a);
    if m <= b < m + MsPerDay {
      assert b == DayOf(a) * MsPerDay + (b - m);
    }
  }

  /** The first day of the epoch. */
  lemma FirstDay(t: int)
    requires 0 <= t < MsPerDay
    ensures DayOf(t) == 0
  {
  }

  /** Two instants of one day lie within a day of each other, and an
      instant between them shares their day. */
  lemma SameDayBetween(a: int, b: int, c: int)
    requires IsSameDay(a, c) && a <= b <= c
    ensures IsSameDay(a, b)
  {
    var m := StartOfDay(a);
    assert m <= b < m + MsPerDay;
  }

  /** A wall-clock time of day as parsed from "HH:MM". */
  datatype Clock = Clock(hour: nat, minute: nat)

  predicate ValidClock(c: Clock) {
    c.hour < 24 && c.minute < 60
  }

  /** `time.split(':').map(Number)` followed by the validity test that
      `Date.setHours` applies: `None` when either field is NaN, which makes
      the date invalid. A missing minute field is `undefined`, hence NaN. */
  function ParseClock(time: string): (r: Option<Clock>)
    ensures r.Some? ==> ':' !in SplitHead(time, ':').0
    ensures r.Some? <==> ToNumber(SplitHead(time, ':').0).Num?
                         && SplitHead(time, ':').1.Some?
                         && ToNumber(SplitHead(time, ':').1.value).Num?
  {
    var (h, m) := SplitHead(time, ':');
    match (ToNumber(h), if m.Some? then ToNumber(m.value) else NaN)
    case (Num(hh), Num(mm)) => Some(Clock(hh, mm))
    case _ => None
  }

  /** "HH:MM", the zero-padded 24-hour form a dose time is written in
      (also `toTimeString().slice(0, 5)`). */
  function Format24(c: Clock): (s: string)
    requires ValidClock(c)
    ensures |s| == 5 && s[2] == ':'
  {
    NatToStringShort(c.hour);
    NatToStringShort(c.minute);
    PadStart(NatToString(c.hour), 2, '0') + ":" + PadStart(NatToString(c.minute), 2, '0')
  }

  /** "<digits>:<digits>" reads as the clock of the two values. */
  lemma ParseClockOf(hs: string, ms: string)
    requires AllDigits(hs) && AllDigits(ms)
    ensures ParseClock(hs + ":" + ms) == Some(Clock(DecimalValue(hs), DecimalValue(ms)))
  {
    DigitsExclude(hs, ':');
    DigitsExclude(ms, ':');
    SplitHeadOf(hs, ':', ms);
  }

  /** Reading a written time gives the same clock back. */
  lemma ParseFormat24(c: Clock)
    requires ValidClock(c)
    ensures ParseClock(Format24(c)) == Some(c)
  {
    var hs := PadStart(NatToString(c.hour), 2, '0');
    var ms := PadStart(NatToString(c.minute), 2, '0');
    ZeroPadValue(NatToString(c.hour), 2);
    ZeroPadValue(NatToString(c.minute), 2);
    ParseClockOf(hs, ms);
  }

  /** `setHours(hour, minute, 0, 0)` on a date that falls on the day of `t`.
      Hours and minutes beyond a day roll over, as `setHours` does. */
  function At(t: int, c: Clock): int {
    StartOfDay(t) + c.hour * MsPerHour + c.minute * MsPerMinute
  }

  /** What `setHours(hour, minute, 0, 0)` means: a valid time lands on the
      same day, that many hours and minutes after its midnight; minutes
      beyond 59 carry into the hour, and 24 more hours is the next day. */
  lemma AtIsSetHours(t: int, c: Clock)
    ensures ValidClock(c) ==> StartOfDay(At(t, c)) == StartOfDay(t)
                              && At(t, c) - StartOfDay(t) == c.hour * MsPerHour + c.minute * MsPerMinute
    ensures At(t, c) == At(t, Clock(c.hour + c.minute / 60, c.minute % 60))
    ensures At(t, Clock(c.hour + 24, c.minute)) == At(t, c) + MsPerDay
  {
    if ValidClock(c) {
      AtSameDay(t, c);
    }
    assert c.minute == (c.minute / 60) * 60 + c.minute % 60;
  }

  /** A valid time of day lands on the same calendar day. */
  lemma AtSameDay(t: int, c: Clock)
    requires ValidClock(c)
    ensures IsSameDay(At(t, c), t)
    ensures StartOfDay(t) <= At(t, c) < StartOfDay(t) + MsPerDay
  {
    var m := StartOfDay(t);
    var x := c.hour * MsPerHour + c.minute * MsPerMinute;
    assert 0 <= x < MsPerDay;
    assert DayOf(m + x) == DayOf(t) by {
      assert m == DayOf(t) * MsPerDay;
      assert (DayOf(t) * MsPerDay + x) / MsPerDay == DayOf(t);
    }
  }

  /** The home screen's sort comparator `aHours - bHours || aMinutes - bMinutes`:
      negative when `a` sorts first. */
  function CompareTimes(a: Clock, b: Clock): int {
    var byHour := a.hour - b.hour;
    if byHour != 0 then byHour else a.minute - b.minute
  }

  /** The comparator's sign: negative exactly when `a` is earlier by
      (hour, minute), zero exactly for equal times, and antisymmetric. */
  lemma CompareTimesSign(a: Clock, b: Clock)
    ensures CompareTimes(a, b) < 0 <==> a.hour < b.hour || (a.hour == b.hour && a.minute < b.minute)
    ensures CompareTimes(a, b) == 0 <==> a == b
    ensures CompareTimes(a, b) == -CompareTimes(b, a)
  {
  }

  /** `a` may precede `b` in the sorted list. */
  predicate TimeLe(a: Clock, b: Clock) {
    CompareTimes(a, b) <= 0
  }

  /** The comparator orders by hour, then by minute. */
  lemma TimeLeIsLexicographic(a: Clock, b: Clock)
    ensures TimeLe(a, b) <==> a.hour < b.hour || (a.hour == b.hour && a.minute <= b.minute)
    ensures TimeLe(a, b) || TimeLe(b, a)
  {
  }

  /** For valid times, the (hour, minute) order is the order of the
      instants the times denote on any one day. */
  lemma TimeLeIsInstantOrder(t: int, a: Clock, b: Clock)
    requires ValidClock(a) && ValidClock(b)
    ensures TimeLe(a, b) <==> At(t, a) <= At(t, b)
  {
    if a.hour < b.hour {
      assert a.hour * MsPerHour + MsPerHour <= b.hour * MsPerHour;
    } else if b.hour < a.hour {
      assert b.hour * MsPerHour + MsPerHour <= a.hour * MsPerHour;
    }
  }
}

=== FILE: wrappers.dfy ===
/** The optional value used wherever the source has `undefined` or a
    failed lookup (`find`, `findIndex` returning -1, an optional field). */
module Wrappers {

  datatype Option<+T> = None | Some(value: T)
}
